=== FILE: README.md ===
# parselab page cache and fetch loop, in Dafny

This project models the core of parselab, a small scraping toolkit.

- `FileCache` is a content-addressed page cache on disk. A page fetched from a URL is stored at `<root>/<h[0]>/<h[0:2]>/<h>`, where `h` is the md5 hex digest of the URL.
  - A spent download budget leaves the marker file `<that path>.error`.
  - A page stored at the old flat location `<root>/<h>` is moved to the sharded path the first time it is looked up.
- `BasicParser.get_page` serves a page from the cache when it can. Otherwise it downloads the page with a budget of three failed tries. It caches the page it gets, or writes the marker when the budget runs out.
  - Its `is_cache_used` flag decides the politeness delay before the next page.
- `NetworkManager.download_page` makes one HTTP request and classifies the answer by status.
- `unhtml` replaces HTML entities using a table. `with_color` wraps a text in an ANSI colour escape.
- The SQL array literal that `set_bulk_attribute_value` builds by hand quotes each value by doubling its quotes, the rule of section 5.3 of ISO/IEC 9075-2.

The modules follow the program:

| module | models |
|---|---|
| `FileSystem` (filesystem.dfy) | the `os` calls the cache makes, on an immutable store of files and directories |
| `TextIo` (textio.dfy) | text-mode `open`: a codec plus universal-newline translation on read |
| `Payload` (payload.dfy) | what the cache and the loop pass around: text, bytes or a response |
| `Cache` (cache.dfy) | `parselab/cache.py`, `FileCache` |
| `Network` (network.dfy) | `parselab/network.py`, `NetworkManager` |
| `Parsing` (parsing.dfy) | `parselab/parsing.py`, `BasicParser.get_page` and its helpers |
| `Scenarios` (scenarios.dfy) | whole `get_page` calls on concrete scripted networks |
| `Common` (common.dfy) | `parselab/common.py` |
| `SqlArray` (sqlarray.dfy) | the `escape`/`avalues` builder of `parselab/parsing.py` |
| `Strings`, `Wrappers` | Python `str.replace`/`join`, and `Option`/`Result` |

Effects become data:
- Every file operation takes a `Store` and returns a `Step`. A `Step` holds the store left behind and the value or the `IoError` raised. Where Python changes the disk and then raises, the `Step` keeps the changed store.
- md5 is an uninterpreted field `md5: string -> Digest` of the cache. A `Digest` is 32 lower-case hex digits.
- The text codec is an uninterpreted encode/decode pair. Both directions may fail, as `UnicodeEncodeError` and `UnicodeDecodeError` do.
- The network is a script: a sequence of `Attempt`s, one per `download_page` call. Each `Attempt` holds the outcome of `session.get` and the index `random.choice` would draw. The outcome is an answer, a `ConnectionError`, or another `requests` exception, named.
- The random politeness delay is a parameter `draw` in 0..10.

## Model

| member | source | states |
|---|---|---|
| Cache.CachePathNamespaces | parselab/cache.py:49-53 | with a path given, two namespaces give the same root iff they are equal; without one, every namespace shares the `cache` root |
| Cache.CachePath | parselab/cache.py:50-53 | the root is `<path>/<namespace>` when a path is given and `cache` beside the script's directory otherwise; `Cache.CachePathNamespaces` states what this means for namespaces |
| Cache.Layout | parselab/cache.py:67-79 | the payload and the marker sit in the shard directory `<root>/<h0>/<h0h1>`, the legacy file directly under the root; the three paths are distinct and none is a directory `__init__` creates |
| Cache.ShardedPathNamesDigest | parselab/cache.py:67-79 | two URLs share a payload path, a marker path or a legacy path iff their md5 digests are equal |
| Cache.InitializeShard | parselab/cache.py:59-65 | one pass of the outer loop: on success `<root>/<i>` and all 16 `<root>/<i>/<i><j>` exist; it adds only layout directories, never over a file, and fails only on a file in a layout place |
| Cache.Initialize | parselab/cache.py:49-65 | `__init__` leaves files alone and adds only layout directories, none where a file stands; on success the root and all 16 + 256 shard directories exist; it fails only when a file occupies a layout path |
| Cache.InitializedHoldsShards | parselab/cache.py:56-72 | after initialisation the parent directory of every payload, marker and legacy path exists |
| Cache.ShardedPath | parselab/cache.py:67-72 | the payload path `<root>/<h[0]>/<h[0:2]>/<h>` for the md5 digest `h` of the url (its properties are those of `Cache.Layout` and `Cache.ShardedPathNamesDigest`) |
| Cache.LegacyPath | parselab/cache.py:74-79 | the flat path `<root>/<h>` of older versions |
| Cache.ErrorPath | parselab/cache.py:93 | the marker path, the payload path with `.error` appended |
| Cache.IsInCacheError | parselab/cache.py:92-93 | the marker exists; `Cache.SaveErrorInCache` makes it hold and `Cache.GetFile` returns `None` while it does |
| Cache.GetFileSize | parselab/cache.py:81-83 | `os.stat` succeeds iff the payload path exists; for a file the size is its length |
| Cache.IsInCache | parselab/cache.py:85-90 | a legacy file is moved onto the payload path (replacing it) and removed, and the answer is whether it was non-empty; without a legacy file nothing changes and the answer is "non-empty payload exists"; a legacy file is moved iff the payload's shard directory exists and the payload path is not a directory, and the lookup raises the rename's error otherwise; a directory in the legacy place makes the rename fail; the marker plays no part |
| Cache.IsInCacheSucceeds | parselab/cache.py:85-90 | on an initialised cache whose paths are not directories, the lookup never raises |
| Cache.IsInCacheIdempotent | parselab/cache.py:85-90 | a second lookup right after a successful one gives the same answer and changes nothing |
| Cache.EmptyPayloadIsMiss | parselab/cache.py:88-90 | a zero-length payload is a miss |
| Cache.LegacyFileMigrates | parselab/cache.py:86-88 | after a lookup only the sharded copy remains and it holds the legacy content |
| Cache.SaveErrorInCache | parselab/cache.py:95-97 | writing the marker succeeds iff its directory exists, the path is not a directory and the codec encodes the message; then it changes only the marker file, which holds the encoded message; once the file can be opened the marker exists, empty when the message cannot be encoded |
| Cache.SaveErrorKeepsPayload | parselab/cache.py:92-97 | on an initialised cache the write succeeds iff the codec encodes the message, `is_in_cache_error` holds afterwards either way, and `is_in_cache` answers as before |
| Cache.GetFile | parselab/cache.py:99-106 | with a marker the result is `None` whatever else exists; otherwise the read succeeds iff the payload can be read (and, in text mode, decoded), giving its bytes in binary mode or its decoded text in text mode, and fails with the read's own error otherwise |
| Cache.WriteChunks | parselab/cache.py:112-113 | writing the chunks one after the other appends their concatenation |
| Cache.WriteToCache | parselab/cache.py:108-120 | only the payload file changes; the write succeeds iff the shard directory exists, the path is not a directory and the data has the kind the mode expects (a text the codec can encode, in text mode); the file then holds the response body or the encoded text; a failure after the file was opened leaves it empty, and a path that cannot be opened leaves the store as it was |
| Cache.RemoveFromCache | parselab/cache.py:128-133 | removal succeeds iff the payload file exists, and then deletes it and nothing else |
| Cache.RemovedIsMiss | parselab/cache.py:128-133 | after a removal the page is a miss unless a legacy file exists |
| Cache.LookupKeepsReady | parselab/cache.py:85-93 | a lookup on an initialised cache succeeds, keeps it initialised and keeps the marker as it was |
| Cache.BinaryRoundTrip | parselab/cache.py:99-113 | bytes written in binary mode read back byte for byte; the page is then a hit iff the body is non-empty |
| Cache.TextRoundTrip | parselab/cache.py:106-119 | text written in text mode reads back with its line endings normalised, so it reads back equal iff it has no carriage return |
| Cache.MarkerHidesPayload | parselab/cache.py:99-101 | once the marker exists, reads yield `None` in both modes even right after a successful payload write |
| TextIo.TextRoundTrip | parselab/cache.py:115-119 | with a lossless codec, text-mode reading returns the written text with `\r\n` and lone `\r` turned into `\n` |
| TextIo.TranslateNewlinesIdentity | parselab/cache.py:106 | newline translation leaves a text unchanged iff it has no carriage return |
| Payload.ChunksConcat | parselab/cache.py:112 | splitting a body into `iter_content` chunks of 1024 bytes and concatenating them gives the body back |
| FileSystem.MakeDirs | parselab/cache.py:56-57 | `os.makedirs` leaves files alone, adds only the path and its ancestors, none where a file stands, and fails only on a file among them or when the path is already a directory |
| Network.NewNetworkManager | parselab/network.py:30-35 | a manager keeps the proxy setting it is given (`{}` by default) and the class's tries count of 3 |
| Network.ChooseProxy | parselab/network.py:45-49 | no proxy is used iff the setting equals `{}`; with a non-empty list, the proxy is one of its elements; `random.choice` raises iff the setting is an empty list (`IndexError`) or a non-empty dict (`KeyError`) |
| Network.EveryProxyReachable | parselab/network.py:46 | every element of a non-empty proxy list can be drawn |
| Network.TriesCountIrrelevant | parselab/network.py:44-59 | any two positive tries counts give the same call, so the count only decides whether the single request is made |
| Network.Classify | parselab/network.py:63-73 | 200 gives the response (binary) or its text; 404 raises `PageNotFound`; 500 raises `InternalServerError`; any other status gives `None`; each iff |
| Network.DownloadPage | parselab/network.py:41-73 | at most one request per call, made iff the tries count is positive and the proxy draw succeeds; a connection error gives `None`; any other exception of the request leaves the call; a failed proxy draw raises out of the call with no request made; a non-positive tries count reads `response` unbound; a returned page has the kind the mode asks for |
| Parsing.NewParser | parselab/parsing.py:20 | a fresh parser has `is_cache_used` set |
| Parsing.SleepTime | parselab/parsing.py:36-37 | the delay is 0 after a cached page and the random draw in 0..10 otherwise |
| Parsing.SleepTimes | parselab/parsing.py:20-37 | no delay before the first page; any delay in 0..10 after a downloaded one |
| Parsing.DownloadLoop | parselab/parsing.py:56-71 | every attempt before the last one used was a captcha or a falsy result; a returned page is truthy, not a captcha and came from the last attempt; the budget runs out after exactly three failures; an exception of `download_page` ends the loop |
| Parsing.GetPage | parselab/parsing.py:42-79 | the delay is `get_sleep_time`'s, in 0..10 and 0 after a cached page; a failing `is_in_cache` raises its error with the store and parser as they were and no download; only `is_cache_used` changes, and only when a page is returned; it is then true iff nothing was downloaded; a lookup other than a clean miss downloads nothing; at most three tries are spent |
| Parsing.AfterLoop | parselab/parsing.py:64-79 | after the loop on a miss: an exception of `download_page` passes through with nothing changed; a spent budget leaves the store `save_error_in_cache` makes and raises that write's own error when it fails, "Could not get page" otherwise; a page leaves the store `write_to_cache` makes and is returned, clearing `is_cache_used`, iff that write succeeds; only a page is ever returned |
| Parsing.CacheHitServes | parselab/parsing.py:47-53 | a hit without a marker, also one that first moved a legacy file into place, downloads nothing and leaves the store the lookup made; the payload read from that store is returned and `is_cache_used` set, or the read's error is raised with the parser unchanged |
| Parsing.CacheHitWithMarker | parselab/parsing.py:47-51 | a hit with a marker raises "Cache error" without a download and without touching `is_cache_used` |
| Parsing.MissAlwaysDownloads | parselab/parsing.py:54-58 | a miss always downloads, whether or not a marker exists |
| Parsing.MarkerDoesNotShortCircuit | parselab/parsing.py:54-79 | with a marker but no payload, a good first answer is returned and cached after one download |
| Parsing.ExhaustionWritesMarker | parselab/parsing.py:66-71 | when the budget runs out, exactly three tries were spent, the marker exists and holds "PageDownloadException", the call raises "Could not get page", and `is_cache_used` is untouched; a codec that cannot encode the marker text leaves it empty and raises its encoding error |
| Parsing.NetworkErrorPropagates | parselab/parsing.py:58 | an exception of `download_page` leaves `get_page` unchanged, with no marker written and the flag untouched |
| Parsing.FetchedIsWritten | parselab/parsing.py:73-76 | a call that returned after downloading leaves exactly the store `write_to_cache` makes of the looked-up store, still ready, with no marker and no legacy file |
| Parsing.FetchedIsReturned | parselab/parsing.py:64-79 | when the loop ends with a page, it is written to the cache; the write fails only on a text the codec cannot encode, which raises with the parser unchanged; otherwise the page is returned and `is_cache_used` cleared |
| Parsing.FetchedTextIsServedNext | parselab/parsing.py:47-79 | a page downloaded in text mode is served by the next call from the cache, with newlines normalised, after the full random delay |
| Parsing.FetchedBinaryIsServedNext | parselab/parsing.py:47-79 | a body downloaded in binary mode is served by the next call when non-empty; an empty body makes the next call download again |
| Scenarios.ThreeConnectionFailures | parselab/parsing.py:56-71 | three connection errors on a miss mean three downloads and a raised exception, with the marker written |
| Scenarios.CaptchaThenPage | parselab/parsing.py:60-65 | a captcha answer costs no try: captcha then page returns the page after two downloads |
| Scenarios.SoftFailuresThenPage | parselab/parsing.py:64-68 | two 503 answers followed by a 200 return the page after three downloads |
| Scenarios.EmptyTextIsFailure | parselab/parsing.py:64-71 | a 200 answer with empty text is falsy: three of them spend the budget |
| Scenarios.NotFoundPropagates | parselab/parsing.py:58 | a 404 raises after one download, with no marker |
| Strings.ReplaceAll | parselab/common.py:28 | Python `str.replace`; its properties are `Strings.ReplaceAllNoLonger`, `Strings.ReplaceAllAbsent`, `Strings.ReplaceAllKeepsOut` and `Strings.ReplaceAllRemovesChar` |
| Common.ApplyTable | parselab/common.py:28 | the `reduce` over the table, one `str.replace` per entry in table order; its properties are `Common.ApplyTableNoLonger` and `Common.ApplyTableRemoves` |
| Common.ApplyTableNoLonger | parselab/common.py:24-28 | a table whose values are no longer than their keys never lengthens a text |
| Common.ApplyTableRemoves | parselab/common.py:24-28 | an entry that maps a character to a text without it removes that character for good when no later value brings it back |
| Common.UnhtmlMapShape | parselab/common.py:5-13 | every key starts with `&` or a line break, every value is at most as long as its key and has no line break, and the table has 35 entries with `\n` and `\r` at 21 and 22 |
| Common.Unhtml | parselab/common.py:24-28 | the output is no longer than the input and has no `\n` or `\r` |
| Common.UnhtmlIdentity | parselab/common.py:5-28 | a text with no `&`, `\n` or `\r` is unchanged |
| Common.UnhtmlDecodesTwice | parselab/common.py:7-9 | entries apply in table order: `&amp;lt;` becomes `<` |
| Common.UnhtmlQuoteOnce | parselab/common.py:6-7 | `&amp;quot;` becomes `&quot;`, because `&quot;` comes before `&amp;` |
| Common.ColorCode | parselab/common.py:15-21 | a name is known iff its code is in 31..34; an unknown name gives 39; a number is used as it is |
| Common.NatRoundTrip | parselab/common.py:22 | the decimal text `%d` writes reads back as the number |
| Common.WithColor | parselab/common.py:17-22 | the text between the SGR escape for the colour code and the reset escape; `Common.WithColorRoundTrip` shows it can be read back |
| Common.WithColorRoundTrip | parselab/common.py:17-22 | the output of `with_color` gives back both the colour code and the wrapped text |
| SqlArray.Escape | parselab/parsing.py:298-299 | every single quote doubled; `SqlArray.EscapeLength` and `SqlArray.ArrayRoundTrip` state what this gives |
| SqlArray.ArrayLiteral | parselab/parsing.py:304 | quoted values joined by `,` in parentheses per row, rows joined by `, ` inside `array[...]`; `SqlArray.ArrayRoundTrip` reads it back |
| SqlArray.EscapeLength | parselab/parsing.py:298-299 | escaping adds exactly one character per single quote |
| SqlArray.ArrayRoundTrip | parselab/parsing.py:298-304 | the array literal reads back as exactly the rows it was built from, whatever quotes, commas or brackets the values contain |
| SqlArray.ArrayLiteralInjective | parselab/parsing.py:304 | different row lists give different literals |
| SqlArray.EmptyArray | parselab/parsing.py:304 | no rows give `array[]` |

## Behaviour worth knowing

These follow from the code as written:
- **A marker does not stop a fetch.** `get_page` never calls `is_in_cache_error`. A miss therefore always goes to the network, even when an error marker from an earlier failure exists (`Parsing.MissAlwaysDownloads`, `Parsing.MarkerDoesNotShortCircuit`).
- **A marker hides a cached page.** `get_file` returns `None` whenever the marker exists, and `get_page` turns that into "Cache error" (`Cache.MarkerHidesPayload`, `Parsing.CacheHitWithMarker`).
- **No pause between tries.** `get_page` retries at once. The only sleep on a failure is the 10 s inside `download_page`, which is left out like every sleep.
- **One request per `download_page` call.** The `return None` at parselab/network.py:58-59 sits inside its loop, so a call makes exactly one request whatever `pageDownloadTriesCount` is (`Network.DownloadPage`, `Network.TriesCountIrrelevant`).
- **Text comes back with its line endings normalised.** Text-mode reading translates `\r\n` and a lone `\r` to `\n`, so a text reads back unchanged only when it has no carriage return (`Cache.TextRoundTrip`).
- **An empty proxy list raises.** A list is never `{}`, so `random.choice` is called on it and raises `IndexError` when it is empty; a non-empty dict raises `KeyError` the same way (`Network.ChooseProxy`).
- **A text the codec cannot encode leaves an empty file.** `open(..., 'w')` truncates before `write` raises `UnicodeEncodeError`, for the payload (`Cache.WriteToCache`) and for the marker (`Cache.SaveErrorInCache`).

## Left out

- File names are modelled as lists of path components, not as the strings `os.path.join` builds. Separators, `..` and symbolic links are not modelled.
- `FileSystem.Rename` on a directory: the move of a whole tree is not modelled. Renaming a directory in the legacy place reports `DirectoryRename` instead.
- `Cache.IsInCache`: with a directory at the legacy path, Python moves that directory onto the payload path, and the lookup then answers from the `st_size` of a directory. The model raises `DirectoryRename` instead (see `FileSystem.Rename`).
- `FileSystem.Size` of a directory is a fixed 4096, standing in for the platform's `st_size`.
- The real md5 and the locale's text codec are uninterpreted functions. Universal newlines are modelled; Windows newline translation on write is not.
- The Python 2 branches (`sys.version_info[0] < 3`) are left out; the model is Python 3.
- The default cache path from `sys.path[0]` (parselab/cache.py:53) is a parameter of `Cache.CachePath`.
- `Cache.CachePath` computes the root `__init__` settles on, but a `FileCache` value takes its root as a parameter. Nothing ties the two together; the lemmas about the layout hold for every root.
- `Cache.Initialize`: on failure it does not say which directories were made before the failing one, only that they are layout directories.
- `solve_captcha` is treated as a hook with no effect. `BasicParser` does not define it, so a subclass whose `is_captcha_required` fires without defining `solve_captcha` raises `AttributeError`; that exception is not modelled. `is_captcha_required` is a pure predicate supplied with the parser.
- `Parsing.GetPage`: the loop's `continue` after a captcha can repeat without bound. The scripted network ends it: when the script runs out, the call ends in `OutOfScript`, a case of the model's own.
- `Parsing.GetPage`: the branch that logs "contains captcha data" (parselab/parsing.py:77-78) cannot be taken, because the loop only ends on a page that is not a captcha. It is kept but never reached.
- The `cookies` argument of `download_page` is ignored by the source, so it is not modelled. The header set, logging and every `time.sleep` are left out too.
- `random.randint` and `random.choice` become the parameters `draw` and `Attempt.pick`.
- `MockCache` is not modelled: its methods lack `self`, so calling them on an instance fails.
- `get_document` and `get_binary_file` only forward to `get_file` and are not modelled separately.
- `load_cookies` and `get_cookies` are not modelled (pickle and file I/O).
- parselab/db.py, the SQL queries of `ParsingDatabase`, `BasicParser.__init__` and `setup_project` are not modelled. They are database and argument-parsing I/O, and db.py is not part of this model.
- `SqlArray.ArrayLiteral` takes values that are already strings. The `str()` conversion of other Python values is not modelled.
- Concurrency is not modelled: the code has no locking, and concurrent workers may race on the same cache file.

=== FILE: cache.dfy ===
/** `FileCache`: a content-addressed page store.  A page fetched from `url` lives
    at `<root>/<h[0]>/<h[0:2]>/<h>`, where `h` is the md5 hex digest of the url;
    a failed fetch leaves `<that path>.error`; `<root>/<h>` is the flat layout of
    older versions, moved into place the first time the page is looked up. */
module Cache {
  import opened Wrappers
  import opened FileSystem
  import opened TextIo
  import opened Payload

  const HexDigits: string := "0123456789abcdef"

  predicate IsHexDigest(s: string) {
    |s| == 32 && forall i :: 0 <= i < |s| ==> s[i] in HexDigits
  }

  /** `hashlib.md5(...).hexdigest()`: 32 lower-case hex digits. */
  type Digest = s: string | IsHexDigest(s) witness "00000000000000000000000000000000"

  type Root = p: Path | |p| > 0 witness ["cache"]

  /** A cache: its root directory, the md5 digest of a url (uninterpreted) and
      the codec of text-mode files.  The root is a parameter; `CachePath` is the
      one `__init__` computes from its arguments. */
  datatype FileCache = FileCache(root: Root, md5: string -> Digest, codec: Codec)

  /** The root `__init__` settles on: `<path>/<namespace>`, or, when `path` is
      empty, `cache` beside the directory of the running script. */
  function CachePath(path: Path, namespace: string, scriptParent: Path): Root {
    if |path| > 0 then path + [namespace] else scriptParent + ["cache"]
  }

  /** Given a path, namespaces keep caches apart; without one, every namespace
      shares the same root. */
  lemma CachePathNamespaces(path: Path, n1: string, n2: string, scriptParent: Path)
    ensures |path| > 0 ==> (CachePath(path, n1, scriptParent) == CachePath(path, n2, scriptParent) <==> n1 == n2)
    ensures |path| == 0 ==> CachePath(path, n1, scriptParent) == CachePath(path, n2, scriptParent)
  {
    if |path| > 0 && CachePath(path, n1, scriptParent) == CachePath(path, n2, scriptParent) {
      assert CachePath(path, n1, scriptParent)[|path|] == n1;
    }
  }

  // ---------------------------------------------------------------- layout

  /** `get_cached_filename`: the sharded payload path. */
  function ShardedPath(c: FileCache, url: string): Path {
    var h := c.md5(url);
    c.root + [h[..1], h[..2], h]
  }

  /** `get_cached_filename_compat`: the flat path of older versions. */
  function LegacyPath(c: FileCache, url: string): Path {
    c.root + [c.md5(url)]
  }

  /** The negative-cache marker: the sharded path with `.error` appended. */
  function ErrorPath(c: FileCache, url: string): Path {
    var h := c.md5(url);
    c.root + [h[..1], h[..2], h + ".error"]
  }

  /** `'%x' % i`. */
  function HexName(i: nat): string
    requires i < 16
  {
    [HexDigits[i]]
  }

  /** `<root>/<i>`, made by `__init__`. */
  function Level1(root: Root, i: nat): Path
    requires i < 16
  {
    root + [HexName(i)]
  }

  /** `<root>/<i>/<i><j>`, made by `__init__`. */
  function Level2(root: Root, i: nat, j: nat): Path
    requires i < 16 && j < 16
  {
    root + [HexName(i), HexName(i) + HexName(j)]
  }

  /** Every directory `__init__` may create. */
  ghost function LayoutDirs(root: Root): set<Path> {
    Prefixes(root)
    + (set i: nat | i < 16 :: Level1(root, i))
    + (set i: nat, j: nat | i < 16 && j < 16 :: Level2(root, i, j))
  }

  /** The root and all 16 + 256 shard directories exist. */
  ghost predicate Initialized(root: Root, fs: Store) {
    && root in fs.dirs
    && (forall i | 0 <= i < 16 :: Level1(root, i) in fs.dirs)
    && (forall i, j | 0 <= i < 16 && 0 <= j < 16 :: Level2(root, i, j) in fs.dirs)
  }

  /** The value of a hex digit. */
  ghost function DigitValue(ch: char): (r: nat)
    requires ch in HexDigits
    ensures r < 16 && HexDigits[r] == ch
  {
    var i :| 0 <= i < |HexDigits| && HexDigits[i] == ch; i
  }

  /** Where the three files of a url sit: the payload and the marker in the shard
      directory named by the digest's first two digits, the legacy file directly
      under the root.  The three are distinct, and none is a directory
      `__init__` makes. */
  lemma Layout(c: FileCache, url: string)
    ensures var h := c.md5(url);
            Parent(ShardedPath(c, url)) == Level2(c.root, DigitValue(h[0]), DigitValue(h[1]))
    ensures Parent(ErrorPath(c, url)) == Parent(ShardedPath(c, url))
    ensures Parent(LegacyPath(c, url)) == c.root
    ensures ShardedPath(c, url) != LegacyPath(c, url)
    ensures ShardedPath(c, url) != ErrorPath(c, url)
    ensures LegacyPath(c, url) != ErrorPath(c, url)
    ensures ShardedPath(c, url) !in LayoutDirs(c.root)
    ensures ErrorPath(c, url) !in LayoutDirs(c.root)
    ensures LegacyPath(c, url) !in LayoutDirs(c.root)
  {
    var h := c.md5(url);
    var i, j := DigitValue(h[0]), DigitValue(h[1]);
    assert h[..1] == HexName(i);
    assert h[..2] == HexName(i) + HexName(j);
    assert Parent(ShardedPath(c, url)) == c.root + [h[..1], h[..2]];
    assert Parent(ErrorPath(c, url)) == c.root + [h[..1], h[..2]];
    assert |ShardedPath(c, url)[|c.root| + 2]| != |ErrorPath(c, url)[|c.root| + 2]|;
    assert LegacyPath(c, url)[|c.root|] != Level1(c.root, i)[|c.root|];
    forall p | p in LayoutDirs(c.root)
      ensures p != ShardedPath(c, url) && p != ErrorPath(c, url) && p != LegacyPath(c, url)
    {
      if p in Prefixes(c.root) {
      } else if p in (set i: nat | i < 16 :: Level1(c.root, i)) {
        var i': nat :| i' < 16 && p == Level1(c.root, i');
        assert |p[|c.root|]| == 1;
      } else {
      }
    }
  }

  /** A payload path names its digest: two urls share a cache file exactly when
      their digests coincide. */
  lemma ShardedPathNamesDigest(c: FileCache, u1: string, u2: string)
    ensures ShardedPath(c, u1) == ShardedPath(c, u2) <==> c.md5(u1) == c.md5(u2)
    ensures ErrorPath(c, u1) == ErrorPath(c, u2) <==> c.md5(u1) == c.md5(u2)
    ensures LegacyPath(c, u1) == LegacyPath(c, u2) <==> c.md5(u1) == c.md5(u2)
  {
    if ShardedPath(c, u1) == ShardedPath(c, u2) {
      assert ShardedPath(c, u1)[|c.root| + 2] == c.md5(u1);
    }
    if ErrorPath(c, u1) == ErrorPath(c, u2) {
      var e1, e2 := ErrorPath(c, u1)[|c.root| + 2], ErrorPath(c, u2)[|c.root| + 2];
      assert e1[..32] == c.md5(u1) && e2[..32] == c.md5(u2);
    }
    if LegacyPath(c, u1) == LegacyPath(c, u2) {
      assert LegacyPath(c, u1)[|c.root|] == c.md5(u1);
    }
  }

  // ---------------------------------------------------------------- __init__

  lemma Level1InLayout(root: Root, i: nat)
    requires i < 16
    ensures Level1(root, i) in LayoutDirs(root)
    ensures Parent(Level1(root, i)) == root
    ensures root in LayoutDirs(root)
  {
    assert root == root[..|root|];
    var s1 := set i': nat | i' < 16 :: Level1(root, i');
    assert Level1(root, i) in s1;
  }

  lemma Level2InLayout(root: Root, i: nat, j: nat)
    requires i < 16 && j < 16
    ensures Level2(root, i, j) in LayoutDirs(root)
    ensures Parent(Level2(root, i, j)) == Level1(root, i)
  {
    var s2 := set i': nat, j': nat | i' < 16 && j' < 16 :: Level2(root, i', j');
    assert Level2(root, i, j) in s2;
  }

  /** What `__init__` has done to `fs0` once it has produced `st`. */
  ghost predicate Grown(root: Root, fs0: Store, st: Store) {
    && st.files == fs0.files
    && fs0.dirs <= st.dirs <= fs0.dirs + LayoutDirs(root)
    && (st.dirs - fs0.dirs) !! fs0.files.Keys
  }

  /** `os.mkdir(d)` unless `d` is a directory already, for a layout directory `d`
      whose parent exists. */
  function EnsureDir(root: Root, fs0: Store, st: Store, d: Path): (r: Step<()>)
    requires Grown(root, fs0, st) && d in LayoutDirs(root) && |d| > 1
    requires Parent(d) in st.dirs && Parent(d) in LayoutDirs(root)
    ensures Grown(root, fs0, r.store)
    ensures st.dirs <= r.store.dirs
    ensures r.result.Success? ==> d in r.store.dirs
    ensures r.result.Failure? ==> r.result.error.path in fs0.files && r.result.error.path in LayoutDirs(root)
  {
    if d in st.dirs then Step(st, Success(()))
    else MkDir(st, d)
  }

  /** The inner loop of `__init__` for digit `i`: `<root>/<i>` and its 16 children. */
  method InitializeShard(c: FileCache, fs0: Store, st0: Store, i: nat) returns (r: Step<()>)
    requires i < 16 && Grown(c.root, fs0, st0) && c.root in st0.dirs
    ensures Grown(c.root, fs0, r.store)
    ensures st0.dirs <= r.store.dirs
    ensures r.result.Success? ==> Level1(c.root, i) in r.store.dirs
    ensures r.result.Success? ==> forall j | 0 <= j < 16 :: Level2(c.root, i, j) in r.store.dirs
    ensures r.result.Failure? ==> r.result.error.path in fs0.files && r.result.error.path in LayoutDirs(c.root)
  {
    var d1 := Level1(c.root, i);
    Level1InLayout(c.root, i);
    r := EnsureDir(c.root, fs0, st0, d1);
    if r.result.Failure? {
      return;
    }
    var st := r.store;
    var j := 0;
    while j < 16
      invariant 0 <= j <= 16
      invariant Grown(c.root, fs0, st)
      invariant st0.dirs <= st.dirs && d1 in st.dirs
      invariant forall j' | 0 <= j' < j :: Level2(c.root, i, j') in st.dirs
    {
      Level2InLayout(c.root, i, j);
      Level1InLayout(c.root, i);
      var made := EnsureDir(c.root, fs0, st, Level2(c.root, i, j));
      if made.result.Failure? {
        return made;
      }
      st := made.store;
      j := j + 1;
    }
    return Step(st, Success(()));
  }

  /** `FileCache.__init__`: makes the root (with its ancestors) unless it is a
      directory already, then `<root>/<i>` and `<root>/<i>/<i><j>` for every hex
      digit pair, skipping those that exist as directories.  It only ever adds
      directories, only layout ones, and never where a file stands; it fails only
      when a file occupies a place the layout needs, keeping what it made so far. */
  method Initialize(c: FileCache, fs: Store) returns (r: Step<()>)
    ensures r.store.files == fs.files
    ensures fs.dirs <= r.store.dirs <= fs.dirs + LayoutDirs(c.root)
    ensures (r.store.dirs - fs.dirs) !! fs.files.Keys
    ensures r.result.Success? ==> Initialized(c.root, r.store)
    ensures r.result.Failure? ==> var bad := r.result.error.path; bad in fs.files && bad in LayoutDirs(c.root)
  {
    var st := fs;
    if c.root !in st.dirs {
      var made := MakeDirs(st, c.root);
      if made.result.Failure? {
        return made;
      }
      st := made.store;
    }
    var i := 0;
    while i < 16
      invariant 0 <= i <= 16
      invariant Grown(c.root, fs, st)
      invariant c.root in st.dirs
      invariant forall i' | 0 <= i' < i :: Level1(c.root, i') in st.dirs
      invariant forall i', j | 0 <= i' < i && 0 <= j < 16 :: Level2(c.root, i', j) in st.dirs
    {
      var made := InitializeShard(c, fs, st, i);
      if made.result.Failure? {
        return made;
      }
      st := made.store;
      i := i + 1;
    }
    return Step(st, Success(()));
  }

  /** After `__init__`, the directory of every payload and marker exists. */
  lemma InitializedHoldsShards(c: FileCache, fs: Store, url: string)
    requires Initialized(c.root, fs)
    ensures Parent(ShardedPath(c, url)) in fs.dirs
    ensures Parent(ErrorPath(c, url)) in fs.dirs
    ensures Parent(LegacyPath(c, url)) in fs.dirs
  {
    Layout(c, url);
  }

  // ---------------------------------------------------------------- lookups

  /** `get_file_size`: `os.stat` of the payload path. */
  function GetFileSize(c: FileCache, fs: Store, url: string): (r: Result<nat, IoError>)
    ensures r.Success? <==> Exists(fs, ShardedPath(c, url))
    ensures ShardedPath(c, url) in fs.files ==> r == Success(|fs.files[ShardedPath(c, url)]|)
  {
    Size(fs, ShardedPath(c, url))
  }

  /** The payload exists and is not empty: what `is_in_cache` reports once any
      legacy file has been moved. */
  predicate Present(c: FileCache, fs: Store, url: string) {
    Exists(fs, ShardedPath(c, url)) && GetFileSize(c, fs, url).value > 0
  }

  /** `is_in_cache`: a legacy file is first moved onto the payload path (replacing
      what is there); the answer is whether a non-empty payload then exists.  The
      error marker plays no part. */
  function IsInCache(c: FileCache, fs: Store, url: string): (r: Step<bool>)
    ensures r.result.Success? ==> !Exists(r.store, LegacyPath(c, url))
    ensures r.result.Success? ==> (r.result.value <==> Present(c, r.store, url))
    ensures !Exists(fs, LegacyPath(c, url)) ==> r.store == fs && r.result.Success?
    ensures LegacyPath(c, url) in fs.dirs ==> r.result == Failure(DirectoryRename(LegacyPath(c, url)))
    ensures LegacyPath(c, url) in fs.files && LegacyPath(c, url) !in fs.dirs ==>
              (r.result.Success? <==> ParentError(fs, ShardedPath(c, url)).None? && ShardedPath(c, url) !in fs.dirs)
    ensures LegacyPath(c, url) in fs.files && r.result.Success? ==>
              var legacy := fs.files[LegacyPath(c, url)];
              && r.store.dirs == fs.dirs
              && r.store.files == (fs.files - {LegacyPath(c, url)})[ShardedPath(c, url) := legacy]
              && r.result.value == (|legacy| > 0)
    ensures r.result.Failure? ==> r.store == fs
  {
    Layout(c, url);
    var legacy, sharded := LegacyPath(c, url), ShardedPath(c, url);
    if Exists(fs, legacy) then
      var moved := Rename(fs, legacy, sharded);
      if moved.result.Failure? then Step(fs, Failure(moved.result.error))
      else Step(moved.store, Success(GetFileSize(c, moved.store, url).value > 0))
    else
      Step(fs, Success(Exists(fs, sharded) && GetFileSize(c, fs, url).value > 0))
  }

  /** A store in which the files of `url` are not shadowed by directories. */
  predicate NoDirsAt(c: FileCache, fs: Store, url: string) {
    && ShardedPath(c, url) !in fs.dirs
    && LegacyPath(c, url) !in fs.dirs
    && ErrorPath(c, url) !in fs.dirs
  }

  /** On an initialised cache whose files are not shadowed by directories, the
      lookup cannot fail. */
  lemma IsInCacheSucceeds(c: FileCache, fs: Store, url: string)
    requires Wf(fs) && Initialized(c.root, fs) && NoDirsAt(c, fs, url)
    ensures IsInCache(c, fs, url).result.Success?
  {
    InitializedHoldsShards(c, fs, url);
    Layout(c, url);
  }

  /** A second lookup right after a successful one answers the same and changes
      nothing. */
  lemma IsInCacheIdempotent(c: FileCache, fs: Store, url: string)
    requires IsInCache(c, fs, url).result.Success?
    ensures var first := IsInCache(c, fs, url);
            IsInCache(c, first.store, url) == first
  {
  }

  /** Zero-length guard: an empty payload file is a miss. */
  lemma EmptyPayloadIsMiss(c: FileCache, fs: Store, url: string)
    requires ShardedPath(c, url) in fs.files && |fs.files[ShardedPath(c, url)]| == 0
    requires !Exists(fs, LegacyPath(c, url))
    ensures IsInCache(c, fs, url) == Step(fs, Success(false))
  {
  }

  /** Migration of a legacy file: afterwards only the sharded copy is left, and it
      holds the legacy content. */
  lemma LegacyFileMigrates(c: FileCache, fs: Store, url: string)
    requires LegacyPath(c, url) in fs.files && Wf(fs) && Initialized(c.root, fs) && NoDirsAt(c, fs, url)
    ensures var r := IsInCache(c, fs, url);
            && r.result == Success(|fs.files[LegacyPath(c, url)]| > 0)
            && LegacyPath(c, url) !in r.store.files
            && r.store.files[ShardedPath(c, url)] == fs.files[LegacyPath(c, url)]
  {
    IsInCacheSucceeds(c, fs, url);
  }

  /** `is_in_cache_error`. */
  predicate IsInCacheError(c: FileCache, fs: Store, url: string) {
    Exists(fs, ErrorPath(c, url))
  }

  /** The text `save_error_in_cache` writes by default. */
  const DefaultErrorText: string := "ERROR"

  /** `save_error_in_cache`: writes the marker, and only the marker.  Once the
      marker can be opened it exists afterwards, even when its text cannot be
      encoded (it is then empty). */
  function SaveErrorInCache(c: FileCache, fs: Store, url: string, error: string := DefaultErrorText): (r: Step<()>)
    ensures r.result.Success? <==>
              ParentError(fs, ErrorPath(c, url)).None? && ErrorPath(c, url) !in fs.dirs && Encodes(c.codec, error)
    ensures r.result.Success? ==>
              r.store == fs.(files := fs.files[ErrorPath(c, url) := c.codec.encode(error).value])
    ensures ParentError(fs, ErrorPath(c, url)).None? && ErrorPath(c, url) !in fs.dirs ==>
              IsInCacheError(c, r.store, url)
    ensures ParentError(fs, ErrorPath(c, url)).None? && ErrorPath(c, url) !in fs.dirs && !Encodes(c.codec, error) ==>
              r == Step(fs.(files := fs.files[ErrorPath(c, url) := []]), Failure(UnencodableText(ErrorPath(c, url))))
    ensures ParentError(fs, ErrorPath(c, url)).Some? || ErrorPath(c, url) in fs.dirs ==> r.store == fs
  {
    WriteText(c.codec, fs, ErrorPath(c, url), error)
  }

  /** On an initialised cache the marker always comes to exist, its write fails
      only on a text the codec cannot encode, and it leaves the payload (and so
      `is_in_cache`) alone. */
  lemma SaveErrorKeepsPayload(c: FileCache, fs: Store, url: string, error: string)
    requires Wf(fs) && Initialized(c.root, fs) && NoDirsAt(c, fs, url)
    ensures var r := SaveErrorInCache(c, fs, url, error);
            && (r.result.Success? <==> Encodes(c.codec, error))
            && IsInCacheError(c, r.store, url)
            && IsInCache(c, r.store, url).result == IsInCache(c, fs, url).result
  {
    InitializedHoldsShards(c, fs, url);
    Layout(c, url);
  }

  /** `get_file`: `None` whenever the marker exists, whatever else is there;
      otherwise the payload, raw in binary mode, decoded in text mode. */
  function GetFile(c: FileCache, fs: Store, url: string, binary: bool): (r: Result<Option<Payload>, IoError>)
    ensures IsInCacheError(c, fs, url) ==> r == Success(None)
    ensures !IsInCacheError(c, fs, url) && r.Success? ==> r.value.Some?
    ensures !IsInCacheError(c, fs, url) ==>
              (r.Success? <==> if binary then ReadFile(fs, ShardedPath(c, url)).Success?
                               else ReadText(c.codec, fs, ShardedPath(c, url)).Success?)
    ensures !IsInCacheError(c, fs, url) && r.Failure? ==>
              r.error == if binary then ReadFile(fs, ShardedPath(c, url)).error
                         else ReadText(c.codec, fs, ShardedPath(c, url)).error
    ensures r.Success? && r.value.Some? ==> ShardedPath(c, url) in fs.files
    ensures binary && r.Success? && r.value.Some? ==> r.value.value == Bytes(fs.files[ShardedPath(c, url)])
    ensures !binary && r.Success? && r.value.Some? ==>
              r.value.value.Text? && Some(r.value.value.text) == ReadText(c.codec, fs, ShardedPath(c, url)).ToOption()
  {
    if IsInCacheError(c, fs, url) then Success(None)
    else if binary then
      var bytes :- ReadFile(fs, ShardedPath(c, url));
      Success(Some(Bytes(bytes)))
    else
      var text :- ReadText(c.codec, fs, ShardedPath(c, url));
      Success(Some(Text(text)))
  }

  // ---------------------------------------------------------------- writes

  /** The `for chunk in ...: f.write(chunk)` loop of a binary write. */
  function WriteChunks(fs: Store, p: Path, chunks: seq<seq<byte>>): (r: Store)
    requires p in fs.files
    ensures r.dirs == fs.dirs
    ensures r.files == fs.files[p := fs.files[p] + Concat(chunks)]
    decreases |chunks|
  {
    if |chunks| == 0 then
      assert fs.files[p] + [] == fs.files[p];
      fs
    else
      var next := Append(fs, p, chunks[0]);
      assert fs.files[p] + chunks[0] + Concat(chunks[1..]) == fs.files[p] + Concat(chunks);
      WriteChunks(next, p, chunks[1..])
  }

  /** `write_to_cache`: in binary mode the response body, chunk by chunk; in text
      mode the encoded text.  The file is opened (and so truncated) before the
      data is looked at, so data of the wrong kind, or a text the codec cannot
      encode, leaves an empty payload. */
  function WriteToCache(c: FileCache, fs: Store, url: string, data: Payload, binary: bool): (r: Step<()>)
    ensures r.store.dirs == fs.dirs
    ensures r.store.files.Keys <= fs.files.Keys + {ShardedPath(c, url)}
    ensures forall p | p in fs.files && p != ShardedPath(c, url) :: p in r.store.files && r.store.files[p] == fs.files[p]
    ensures r.result.Success? <==>
              && ParentError(fs, ShardedPath(c, url)).None? && ShardedPath(c, url) !in fs.dirs
              && (if binary then data.Response? else data.Text? && Encodes(c.codec, data.text))
    ensures r.result.Success? ==> ShardedPath(c, url) in r.store.files
    ensures r.result.Success? && binary ==> r.store.files[ShardedPath(c, url)] == data.body
    ensures r.result.Success? && !binary ==> r.store.files[ShardedPath(c, url)] == c.codec.encode(data.text).value
    ensures ParentError(fs, ShardedPath(c, url)).None? && ShardedPath(c, url) !in fs.dirs && r.result.Failure? ==>
              r.store == fs.(files := fs.files[ShardedPath(c, url) := []])
    ensures ParentError(fs, ShardedPath(c, url)).Some? || ShardedPath(c, url) in fs.dirs ==> r.store == fs
  {
    var p := ShardedPath(c, url);
    if binary then
      var open := OpenForWrite(fs, p);
      if open.result.Failure? then open
      else match data
        case Response(_, _, body) =>
          ChunksConcat(body, ChunkSize);
          assert [] + body == body;
          Step(WriteChunks(open.store, p, Chunks(body, ChunkSize)), Success(()))
        case _ => Step(open.store, Failure(WrongDataKind(p)))
    else match data
      case Text(text) => WriteText(c.codec, fs, p, text)
      case _ =>
        var open := OpenForWrite(fs, p);
        if open.result.Failure? then open else Step(open.store, Failure(WrongDataKind(p)))
  }

  /** `remove_from_cache`: deletes the payload, and nothing else; fails when there
      is no payload file. */
  function RemoveFromCache(c: FileCache, fs: Store, url: string): (r: Step<()>)
    ensures r.result.Success? <==> ShardedPath(c, url) in fs.files && ShardedPath(c, url) !in fs.dirs
    ensures r.result.Success? ==> r.store == fs.(files := fs.files - {ShardedPath(c, url)})
    ensures r.result.Failure? ==> r.store == fs
  {
    RemoveFile(fs, ShardedPath(c, url))
  }

  /** After a removal the page is a miss again, unless a legacy file brings it back. */
  lemma RemovedIsMiss(c: FileCache, fs: Store, url: string)
    requires RemoveFromCache(c, fs, url).result.Success? && !Exists(fs, LegacyPath(c, url))
    ensures IsInCache(c, RemoveFromCache(c, fs, url).store, url) == Step(RemoveFromCache(c, fs, url).store, Success(false))
  {
    Layout(c, url);
  }

  // ---------------------------------------------------------------- round trips

  /** The preconditions every write of the payload needs: an initialised cache
      whose files for `url` are not shadowed by directories. */
  ghost predicate Ready(c: FileCache, fs: Store, url: string) {
    Wf(fs) && Initialized(c.root, fs) && NoDirsAt(c, fs, url)
  }

  /** A lookup keeps the cache ready and the marker where it was. */
  lemma LookupKeepsReady(c: FileCache, fs: Store, url: string)
    requires Ready(c, fs, url)
    ensures IsInCache(c, fs, url).result.Success?
    ensures Ready(c, IsInCache(c, fs, url).store, url)
    ensures IsInCacheError(c, IsInCache(c, fs, url).store, url) <==> IsInCacheError(c, fs, url)
  {
    IsInCacheSucceeds(c, fs, url);
    Layout(c, url);
  }

  lemma WriteSucceeds(c: FileCache, fs: Store, url: string)
    requires Ready(c, fs, url)
    ensures ParentError(fs, ShardedPath(c, url)).None? && ShardedPath(c, url) !in fs.dirs
  {
    InitializedHoldsShards(c, fs, url);
    Layout(c, url);
  }

  /** Binary round trip: the bytes read back are the response body, byte for byte;
      and the page is a hit exactly when that body is not empty. */
  lemma BinaryRoundTrip(c: FileCache, fs: Store, url: string, status: int, text: string, body: seq<byte>)
    requires Ready(c, fs, url) && !IsInCacheError(c, fs, url)
    ensures var w := WriteToCache(c, fs, url, Response(status, text, body), true);
            && w.result.Success?
            && GetFile(c, w.store, url, true) == Success(Some(Bytes(body)))
            && (!Exists(fs, LegacyPath(c, url)) ==> IsInCache(c, w.store, url) == Step(w.store, Success(|body| > 0)))
  {
    WriteSucceeds(c, fs, url);
    Layout(c, url);
  }

  /** Text round trip: the text read back is the written text with its line
      endings normalised, so it is the same text exactly when it has no `\r`. */
  lemma TextRoundTrip(c: FileCache, fs: Store, url: string, text: string)
    requires Ready(c, fs, url) && !IsInCacheError(c, fs, url) && Lossless(c.codec)
    ensures var w := WriteToCache(c, fs, url, Text(text), false);
            && w.result.Success?
            && GetFile(c, w.store, url, false) == Success(Some(Text(TranslateNewlines(text))))
            && (GetFile(c, w.store, url, false) == Success(Some(Text(text))) <==> '\r' !in text)
  {
    WriteSucceeds(c, fs, url);
    Layout(c, url);
    TextIo.TextRoundTrip(c.codec, fs, ShardedPath(c, url), text);
  }

  /** Error precedence: once the marker exists, reads yield `None` in both modes,
      even right after a successful write of the payload. */
  lemma MarkerHidesPayload(c: FileCache, fs: Store, url: string, data: Payload, binary: bool)
    requires IsInCacheError(c, fs, url)
    ensures var w := WriteToCache(c, fs, url, data, binary);
            GetFile(c, w.store, url, true) == Success(None) && GetFile(c, w.store, url, false) == Success(None)
  {
    Layout(c, url);
  }
}

=== FILE: common.dfy ===
/** The pure text helpers: HTML-entity clean-up and ANSI colouring. */
module Common {
  import opened Wrappers
  import opened Strings

  /** A replacement table: `(key, value)` pairs applied in order. */
  type Table = seq<(string, string)>

  /** `unhtml_map`, in the insertion order Python iterates a dict in, one
      constant per source line of the table. */
  const UnhtmlMap: Table := UnhtmlLine1 + UnhtmlLine2 + UnhtmlLine3 + UnhtmlLine4 + UnhtmlLine5 + UnhtmlLine6 + UnhtmlLine7

  const UnhtmlLine1: Table := [("&quot;", "\""), ("&laquo;", "\""), ("&raquo;", "\""), ("&#34;", "\""), ("&#8220;", "\"")]
  const UnhtmlLine2: Table := [("&#171;", "\""), ("&#187;", "\""), ("&#039;", "'"), ("&#39;", "'"), ("&amp;", "&")]
  const UnhtmlLine3: Table := [("&copy;", "(c)"), ("&bull;", "*"), ("&#151;", "-"), ("&#8211;", "-"), ("&#8212;", "-")]
  const UnhtmlLine4: Table := [("&#45;", "-"), ("&mdash;", "-"), ("&lt;", "<"), ("&gt;", ">"), ("&nbsp;", " "), ("&#160;", " ")]
  const UnhtmlLine5: Table := [("\n", ""), ("\r", ""), ("&#124;", "|"), ("&#033;", "!"), ("&#33;", "!"), ("&#58;", ":"), ("&#x3a;", ":")]
  const UnhtmlLine6: Table := [("&lsaquo;", "<"), ("&rsaquo;", ">"), ("&#178;", "\U{B2}"), ("&#179;", "\U{B3}"), ("&#180;", "\U{B4}"), ("&#181;", "\U{B5}")]
  const UnhtmlLine7: Table := [("&#176;", "\U{B0}")]

  /** What the proofs about `unhtml` need of one entry: a non-empty key that
      starts with `&` or a line break, a value no longer than the key, and no
      line break in the value. */
  predicate EntryShape(e: (string, string)) {
    && |e.0| > 0 && e.0[0] in "&\n\r" && |e.1| <= |e.0|
    && '\n' !in e.1 && '\r' !in e.1
  }

  predicate TableShape(t: Table) {
    forall i :: 0 <= i < |t| ==> EntryShape(t[i])
  }

  lemma TableShapeConcat(a: Table, b: Table)
    requires TableShape(a) && TableShape(b)
    ensures TableShape(a + b)
  {
    forall i | 0 <= i < |a + b| ensures EntryShape((a + b)[i]) {
      if i < |a| { assert (a + b)[i] == a[i]; } else { assert (a + b)[i] == b[i - |a|]; }
    }
  }

  /** Every key is non-empty, so `str.replace` with it is well defined. */
  predicate ValidTable(t: Table) {
    forall i :: 0 <= i < |t| ==> |t[i].0| > 0
  }

  /** Every replacement is at most as long as the text it replaces. */
  predicate Shrinking(t: Table) {
    forall i :: 0 <= i < |t| ==> |t[i].1| <= |t[i].0|
  }

  /** Every key starts with one of the characters of `lead`. */
  predicate KeysStartIn(t: Table, lead: string) {
    forall i :: 0 <= i < |t| ==> |t[i].0| > 0 && t[i].0[0] in lead
  }

  /** `reduce(lambda x, y: x.replace(y, t[y]), t, s)`: the entries are applied
      one after the other, each to the result of the previous ones. */
  function ApplyTable(s: string, t: Table): string
    requires ValidTable(t)
    decreases |t|
  {
    if |t| == 0 then s else ApplyTable(ReplaceAll(s, t[0].0, t[0].1), t[1..])
  }

  lemma {:induction false} ApplyTableNoLonger(s: string, t: Table)
    requires ValidTable(t) && Shrinking(t)
    ensures |ApplyTable(s, t)| <= |s|
    decreases |t|
  {
    if |t| > 0 {
      ReplaceAllNoLonger(s, t[0].0, t[0].1);
      ApplyTableNoLonger(ReplaceAll(s, t[0].0, t[0].1), t[1..]);
    }
  }

  /** A text in which no key can start is left unchanged. */
  lemma {:induction false} ApplyTableAbsent(s: string, t: Table, lead: string)
    requires ValidTable(t) && KeysStartIn(t, lead)
    requires forall ch :: ch in lead ==> ch !in s
    ensures ApplyTable(s, t) == s
    decreases |t|
  {
    if |t| > 0 {
      ReplaceAllAbsent(s, t[0].0, t[0].1);
      ApplyTableAbsent(s, t[1..], lead);
    }
  }

  /** A character found neither in the text nor in any value stays out. */
  lemma {:induction false} ApplyTableKeepsOut(s: string, t: Table, c: char)
    requires ValidTable(t) && c !in s
    requires forall i :: 0 <= i < |t| ==> c !in t[i].1
    ensures c !in ApplyTable(s, t)
    decreases |t|
  {
    if |t| > 0 {
      ReplaceAllKeepsOut(s, t[0].0, t[0].1, c);
      ApplyTableKeepsOut(ReplaceAll(s, t[0].0, t[0].1), t[1..], c);
    }
  }

  /** An entry `[c] -> v` removes `c` for good when neither `v` nor any later
      value brings it back. */
  lemma {:induction false} ApplyTableRemoves(s: string, t: Table, c: char, k: nat)
    requires ValidTable(t) && k < |t| && t[k].0 == [c]
    requires forall i :: k <= i < |t| ==> c !in t[i].1
    ensures c !in ApplyTable(s, t)
    decreases k
  {
    if k == 0 {
      ReplaceAllRemovesChar(s, c, t[0].1);
      ApplyTableKeepsOut(ReplaceAll(s, t[0].0, t[0].1), t[1..], c);
    } else {
      ApplyTableRemoves(ReplaceAll(s, t[0].0, t[0].1), t[1..], c, k - 1);
    }
  }

  lemma UnhtmlMapTableShape()
    ensures TableShape(UnhtmlMap)
  {
    ShapeOfLines();
    var t2 := UnhtmlLine1 + UnhtmlLine2;
    var t3 := t2 + UnhtmlLine3;
    var t4 := t3 + UnhtmlLine4;
    var t5 := t4 + UnhtmlLine5;
    var t6 := t5 + UnhtmlLine6;
    TableShapeConcat(UnhtmlLine1, UnhtmlLine2);
    TableShapeConcat(t2, UnhtmlLine3);
    TableShapeConcat(t3, UnhtmlLine4);
    TableShapeConcat(t4, UnhtmlLine5);
    TableShapeConcat(t5, UnhtmlLine6);
    TableShapeConcat(t6, UnhtmlLine7);
  }

  lemma UnhtmlMapShape()
    ensures ValidTable(UnhtmlMap) && Shrinking(UnhtmlMap)
    ensures KeysStartIn(UnhtmlMap, "&\n\r")
    ensures |UnhtmlMap| == 35 && UnhtmlMap[21].0 == "\n" && UnhtmlMap[22].0 == "\r"
    ensures forall i :: 0 <= i < |UnhtmlMap| ==> '\n' !in UnhtmlMap[i].1 && '\r' !in UnhtmlMap[i].1
  {
    UnhtmlMapTableShape();
    var front := UnhtmlLine1 + UnhtmlLine2 + UnhtmlLine3 + UnhtmlLine4;
    assert |front| == 21;
    assert UnhtmlMap == front + UnhtmlLine5 + UnhtmlLine6 + UnhtmlLine7;
    assert UnhtmlMap[21] == UnhtmlLine5[0];
    assert UnhtmlMap[22] == UnhtmlLine5[1];
    forall i | 0 <= i < |UnhtmlMap| ensures '\n' !in UnhtmlMap[i].1 && '\r' !in UnhtmlMap[i].1 {
      assert EntryShape(UnhtmlMap[i]);
    }
  }

  /** `unhtml`: replaces HTML entities by plain characters and drops line breaks.
      The result is never longer than the input and has no line break in it. */
  function Unhtml(s: string): (r: string)
    ensures |r| <= |s|
    ensures '\n' !in r && '\r' !in r
  {
    UnhtmlMapShape();
    ApplyTableNoLonger(s, UnhtmlMap);
    ApplyTableRemoves(s, UnhtmlMap, '\n', 21);
    ApplyTableRemoves(s, UnhtmlMap, '\r', 22);
    ApplyTable(s, UnhtmlMap)
  }

  /** Every key starts with `&`, a newline or a carriage return, so a text
      with none of them passes through unchanged. */
  lemma UnhtmlIdentity(s: string)
    requires '&' !in s && '\n' !in s && '\r' !in s
    ensures Unhtml(s) == s
  {
    UnhtmlMapShape();
    ApplyTableAbsent(s, UnhtmlMap, "&\n\r");
  }

  /** Applying a table in two parts is applying the whole table. */
  lemma {:induction false} ApplyTableConcat(s: string, a: Table, b: Table)
    requires ValidTable(a) && ValidTable(b)
    ensures ValidTable(a + b)
    ensures ApplyTable(s, a + b) == ApplyTable(ApplyTable(s, a), b)
    decreases |a|
  {
    assert ValidTable(a + b) by {
      forall i | 0 <= i < |a + b| ensures |(a + b)[i].0| > 0 {
        if i < |a| { assert (a + b)[i] == a[i]; } else { assert (a + b)[i] == b[i - |a|]; }
      }
    }
    if |a| == 0 {
      assert a + b == b;
    } else {
      assert (a + b)[1..] == a[1..] + b;
      ApplyTableConcat(ReplaceAll(s, a[0].0, a[0].1), a[1..], b);
    }
  }

  /** A text whose first character starts every key and occurs nowhere else
      in it, and whose second character differs from every key's, passes
      through unchanged. */
  lemma {:induction false} ApplyTableHeadMismatch(s: string, t: Table)
    requires ValidTable(t) && |s| > 1 && s[0] !in s[1..]
    requires forall i :: 0 <= i < |t| ==> |t[i].0| > 1 && t[i].0[0] == s[0] && t[i].0[1] != s[1]
    ensures ApplyTable(s, t) == s
    decreases |t|
  {
    if |t| > 0 {
      var k := t[0].0;
      assert !(|k| <= |s| && s[..|k|] == k) by {
        if |k| <= |s| { assert s[..|k|][1] == s[1]; }
      }
      ReplaceAllHeadMismatch(s, t[0].0, t[0].1);
      ApplyTableHeadMismatch(s, t[1..]);
    }
  }

  /** A table whose keys all start with the text's first character, all but
      the last differing from it in the second, and whose last key is a prefix
      of the text, replaces exactly that prefix. */
  lemma DecodeHead(s: string, t: Table)
    requires ValidTable(t) && |t| > 0 && |s| > 1 && s[0] !in s[1..]
    requires forall i :: 0 <= i < |t| - 1 ==> |t[i].0| > 1 && t[i].0[0] == s[0] && t[i].0[1] != s[1]
    requires var k := t[|t| - 1].0; |k| <= |s| && s[..|k|] == k
    ensures ApplyTable(s, t) == t[|t| - 1].1 + s[|t[|t| - 1].0|..]
  {
    var n := |t| - 1;
    assert t == t[..n] + [t[n]];
    ApplyTableHeadMismatch(s, t[..n]);
    ApplyTableConcat(s, t[..n], [t[n]]);
    ReplaceAllHeadMatch(s, t[n].0, t[n].1);
  }

  lemma ShapeOfLines()
    ensures TableShape(UnhtmlLine1) && TableShape(UnhtmlLine2) && TableShape(UnhtmlLine3)
    ensures TableShape(UnhtmlLine4) && TableShape(UnhtmlLine5) && TableShape(UnhtmlLine6)
    ensures TableShape(UnhtmlLine7)
  {
  }

  /** `unhtml` is the table applied line by line. */
  lemma UnhtmlByLines(s: string)
    ensures ValidTable(UnhtmlLine1) && ValidTable(UnhtmlLine2) && ValidTable(UnhtmlLine3) && ValidTable(UnhtmlLine4)
    ensures ValidTable(UnhtmlLine5) && ValidTable(UnhtmlLine6) && ValidTable(UnhtmlLine7)
    ensures Unhtml(s) ==
      ApplyTable(ApplyTable(ApplyTable(ApplyTable(ApplyTable(ApplyTable(ApplyTable(s,
        UnhtmlLine1), UnhtmlLine2), UnhtmlLine3), UnhtmlLine4), UnhtmlLine5), UnhtmlLine6), UnhtmlLine7)
  {
    ShapeOfLines();
    var t2 := UnhtmlLine1 + UnhtmlLine2;
    var t3 := t2 + UnhtmlLine3;
    var t4 := t3 + UnhtmlLine4;
    var t5 := t4 + UnhtmlLine5;
    var t6 := t5 + UnhtmlLine6;
    ApplyTableConcat(s, UnhtmlLine1, UnhtmlLine2);
    ApplyTableConcat(s, t2, UnhtmlLine3);
    ApplyTableConcat(s, t3, UnhtmlLine4);
    ApplyTableConcat(s, t4, UnhtmlLine5);
    ApplyTableConcat(s, t5, UnhtmlLine6);
    ApplyTableConcat(s, t6, UnhtmlLine7);
  }

  /** Lines 1 and 2 of the table turn `&amp;X` into `&X`. */
  lemma AmpStage(s: string, x: string)
    requires s == "&amp;" + x && |x| > 1 && '&' !in x && x[0] != 'a'
    ensures ApplyTable(ApplyTable(s, UnhtmlLine1), UnhtmlLine2) == "&" + x
  {
    ShapeOfLines();
    assert s[0] == '&' && s[1] == 'a' && s[0] !in s[1..];
    ApplyTableHeadMismatch(s, UnhtmlLine1);
    assert s[..5] == "&amp;" && s[5..] == x;
    DecodeHead(s, UnhtmlLine2);
  }

  /** Lines 3 and 4 of the table turn `&lt;` into `<`. */
  lemma LtStage(s: string)
    requires s == "&lt;"
    ensures ApplyTable(ApplyTable(s, UnhtmlLine3), UnhtmlLine4) == "<"
  {
    ShapeOfLines();
    assert s[0] == '&' && s[1] == 'l' && s[0] !in s[1..];
    ApplyTableHeadMismatch(s, UnhtmlLine3);
    var lt := UnhtmlLine4[..3];
    var rest := UnhtmlLine4[3..];
    assert UnhtmlLine4 == lt + rest;
    assert s[..4] == "&lt;" && s[4..] == "";
    DecodeHead(s, lt);
    var r := ApplyTable(s, lt);
    assert r == "<";
    assert '&' !in r && '\n' !in r && '\r' !in r;
    ApplyTableAbsent(r, rest, "&\n\r");
    ApplyTableConcat(s, lt, rest);
  }

  /** Lines 5 to 7 of the table leave a text without `&` or line breaks alone. */
  lemma PlainTail(s: string)
    requires '&' !in s && '\n' !in s && '\r' !in s
    ensures ApplyTable(ApplyTable(ApplyTable(s, UnhtmlLine5), UnhtmlLine6), UnhtmlLine7) == s
  {
    ShapeOfLines();
    ApplyTableAbsent(s, UnhtmlLine5, "&\n\r");
    ApplyTableAbsent(s, UnhtmlLine6, "&\n\r");
    ApplyTableAbsent(s, UnhtmlLine7, "&\n\r");
  }

  /** Lines 3 and 4 of the table leave `&quot;` alone. */
  lemma QuotMiddle(s: string)
    requires s == "&quot;"
    ensures ApplyTable(ApplyTable(s, UnhtmlLine3), UnhtmlLine4) == s
  {
    ShapeOfLines();
    assert s[0] == '&' && s[1] == 'q' && s[0] !in s[1..];
    ApplyTableHeadMismatch(s, UnhtmlLine3);
    ApplyTableHeadMismatch(s, UnhtmlLine4);
  }

  /** Line 5 of the table leaves `&quot;` alone. */
  lemma QuotLine5(s: string)
    requires s == "&quot;"
    ensures ApplyTable(s, UnhtmlLine5) == s
  {
    ShapeOfLines();
    assert s[0] == '&' && s[1] == 'q' && s[0] !in s[1..];
    assert '\n' !in s && '\r' !in s;
    var breaks := UnhtmlLine5[..2];
    var rest := UnhtmlLine5[2..];
    assert UnhtmlLine5 == breaks + rest;
    ApplyTableAbsent(s, breaks, "\n\r");
    ApplyTableHeadMismatch(s, rest);
    ApplyTableConcat(s, breaks, rest);
  }

  /** Lines 6 and 7 of the table leave `&quot;` alone. */
  lemma QuotLines67(s: string)
    requires s == "&quot;"
    ensures ApplyTable(ApplyTable(s, UnhtmlLine6), UnhtmlLine7) == s
  {
    ShapeOfLines();
    assert s[0] == '&' && s[1] == 'q' && s[0] !in s[1..];
    ApplyTableHeadMismatch(s, UnhtmlLine6);
    ApplyTableHeadMismatch(s, UnhtmlLine7);
  }

  /** Lines 5 to 7 of the table leave `&quot;` alone. */
  lemma QuotTail(s: string)
    requires s == "&quot;"
    ensures ApplyTable(ApplyTable(ApplyTable(s, UnhtmlLine5), UnhtmlLine6), UnhtmlLine7) == s
  {
    QuotLine5(s);
    QuotLines67(ApplyTable(s, UnhtmlLine5));
  }

  /** Lines 1 to 4 of the table turn `&amp;lt;` into `<`. */
  lemma LtFront(s: string)
    requires s == "&amp;lt;"
    ensures ApplyTable(ApplyTable(ApplyTable(ApplyTable(s, UnhtmlLine1), UnhtmlLine2), UnhtmlLine3), UnhtmlLine4) == "<"
  {
    AmpStage(s, "lt;");
    LtStage(ApplyTable(ApplyTable(s, UnhtmlLine1), UnhtmlLine2));
  }

  /** Lines 5 to 7 of the table leave `<` alone. */
  lemma LtTail(s: string)
    requires s == "<"
    ensures ApplyTable(ApplyTable(ApplyTable(s, UnhtmlLine5), UnhtmlLine6), UnhtmlLine7) == s
  {
    assert '&' !in s && '\n' !in s && '\r' !in s;
    PlainTail(s);
  }

  /** The entries are applied in table order, not as one simultaneous pass:
      `&amp;` comes before `&lt;`, so an escaped entity is decoded twice. */
  lemma UnhtmlDecodesTwice(s: string)
    requires s == "&amp;lt;"
    ensures Unhtml(s) == "<"
  {
    UnhtmlByLines(s);
    LtFront(s);
    LtTail(ApplyTable(ApplyTable(ApplyTable(ApplyTable(s, UnhtmlLine1), UnhtmlLine2), UnhtmlLine3), UnhtmlLine4));
  }

  /** Lines 1 to 4 of the table turn `&amp;quot;` into `&quot;`. */
  lemma QuotFront(s: string)
    requires s == "&amp;quot;"
    ensures ApplyTable(ApplyTable(ApplyTable(ApplyTable(s, UnhtmlLine1), UnhtmlLine2), UnhtmlLine3), UnhtmlLine4) == "&quot;"
  {
    AmpStage(s, "quot;");
    QuotMiddle(ApplyTable(ApplyTable(s, UnhtmlLine1), UnhtmlLine2));
  }

  /** `&quot;` comes before `&amp;`, so an escaped quote is decoded only once. */
  lemma UnhtmlQuoteOnce(s: string)
    requires s == "&amp;quot;"
    ensures Unhtml(s) == "&quot;"
  {
    UnhtmlByLines(s);
    QuotFront(s);
    QuotTail(ApplyTable(ApplyTable(ApplyTable(ApplyTable(s, UnhtmlLine1), UnhtmlLine2), UnhtmlLine3), UnhtmlLine4));
  }

  // ---------------------------------------------------------------------
  // Terminal colours

  /** `COLORS`: the colour names `with_color` knows. */
  const Colors: map<string, int> := map["red" := 31, "green" := 32, "yellow" := 33, "blue" := 34]

  /** The code `COLORS.get` falls back to for an unknown name. */
  const DefaultColor: int := 39

  /** The first argument of `with_color`: a colour name or a numeric code. */
  datatype Color = Named(name: string) | Code(code: int)

  /** The SGR code `with_color` prints: a known name maps to 31..34, an unknown
      name to 39, and a number is used as it is. */
  function ColorCode(c: Color): (r: int)
    ensures c.Code? ==> r == c.code
    ensures c.Named? ==> (c.name in Colors <==> 31 <= r <= 34)
    ensures c.Named? && c.name !in Colors ==> r == DefaultColor
  {
    match c
    case Named(n) => if n in Colors then Colors[n] else DefaultColor
    case Code(n) => n
  }

  predicate IsDigit(ch: char) {
    '0' <= ch <= '9'
  }

  predicate AllDigits(s: string) {
    forall i :: 0 <= i < |s| ==> IsDigit(s[i])
  }

  function DigitChar(d: nat): (ch: char)
    requires d < 10
    ensures IsDigit(ch) && ch as int - '0' as int == d
  {
    ('0' as int + d) as char
  }

  /** Python `"%d" % n` for `n >= 0`: decimal, no leading zero. */
  function NatToString(n: nat): (r: string)
    ensures |r| > 0 && AllDigits(r)
    ensures r[0] == '0' ==> n == 0
    decreases n
  {
    if n < 10 then [DigitChar(n)] else NatToString(n / 10) + [DigitChar(n % 10)]
  }

  /** The value of a string of decimal digits. */
  function ParseNat(s: string): nat
    requires AllDigits(s)
    decreases |s|
  {
    if |s| == 0 then 0 else 10 * ParseNat(s[..|s| - 1]) + (s[|s| - 1] as int - '0' as int)
  }

  lemma {:induction false} NatRoundTrip(n: nat)
    ensures ParseNat(NatToString(n)) == n
    decreases n
  {
    if n >= 10 {
      var r := NatToString(n);
      assert r[..|r| - 1] == NatToString(n / 10);
      NatRoundTrip(n / 10);
    }
  }

  /** Python `"%d" % i`: a minus sign before the digits of a negative number. */
  function IntToString(i: int): string {
    if i < 0 then "-" + NatToString(-i) else NatToString(i)
  }

  const Csi: string := "\U{1b}["
  const Reset: string := "\U{1b}[0m"

  /** `with_color`: the text wrapped in an SGR escape for the colour and the
      reset escape. */
  function WithColor(c: Color, s: string): string {
    Csi + IntToString(ColorCode(c)) + "m" + s + Reset
  }

  /** The number of decimal digits at the head of `s`. */
  function LeadingDigits(s: string): (k: nat)
    ensures k <= |s| && AllDigits(s[..k])
    ensures k < |s| ==> !IsDigit(s[k])
    decreases |s|
  {
    if |s| > 0 && IsDigit(s[0]) then
      var k := 1 + LeadingDigits(s[1..]);
      assert s[..k] == [s[0]] + s[1..][..k - 1];
      k
    else 0
  }

  lemma {:induction false} LeadingDigitsOf(d: string, t: string)
    requires AllDigits(d) && |t| > 0 && !IsDigit(t[0])
    ensures LeadingDigits(d + t) == |d|
    decreases |d|
  {
    if |d| > 0 {
      assert (d + t)[1..] == d[1..] + t;
      LeadingDigitsOf(d[1..], t);
    } else {
      assert d + t == t;
    }
  }

  /** An optionally signed decimal number at the head of `s`, and what follows it. */
  function ParseInt(s: string): Option<(int, string)> {
    var sign := if |s| > 0 && s[0] == '-' then 1 else 0;
    var k := LeadingDigits(s[sign..]);
    if k == 0 then None
    else
      var n: int := ParseNat(s[sign..][..k]);
      Some((if sign == 1 then -n else n, s[sign..][k..]))
  }

  /** Digits followed by a non-digit read back as their value. */
  lemma ParseDigitsOf(n: nat, t: string)
    requires |t| > 0 && !IsDigit(t[0])
    ensures var s := NatToString(n) + t;
            LeadingDigits(s) == |NatToString(n)| && s[..|NatToString(n)|] == NatToString(n)
            && s[|NatToString(n)|..] == t && ParseNat(NatToString(n)) == n
  {
    NatRoundTrip(n);
    LeadingDigitsOf(NatToString(n), t);
  }

  lemma ParseNonNegativeOf(n: nat, t: string)
    requires |t| > 0 && !IsDigit(t[0])
    ensures ParseInt(NatToString(n) + t) == Some((n, t))
  {
    var d := NatToString(n);
    var s := d + t;
    ParseDigitsOf(n, t);
    assert s[0] != '-' by { assert s[0] == d[0] && IsDigit(d[0]); }
    assert s[0..] == s;
  }

  lemma ParseNegativeOf(n: nat, t: string)
    requires n > 0 && |t| > 0 && !IsDigit(t[0])
    ensures ParseInt("-" + NatToString(n) + t) == Some((-(n as int), t))
  {
    var d := NatToString(n);
    var s := "-" + d + t;
    assert s[0] == '-' && s[1..] == d + t;
    ParseDigitsOf(n, t);
  }

  lemma ParseIntOf(i: int, t: string)
    requires |t| > 0 && !IsDigit(t[0])
    ensures ParseInt(IntToString(i) + t) == Some((i, t))
  {
    if i < 0 {
      ParseNegativeOf(-i, t);
    } else {
      ParseNonNegativeOf(i, t);
    }
  }

  /** Reads back a text written by `with_color`: the code and the wrapped text,
      or `None` when the text does not have that shape. */
  function ParseColored(r: string): Option<(int, string)> {
    match DropPrefix(Csi, r)
    case None => None
    case Some(rest) =>
      match ParseInt(rest)
      case None => None
      case Some((code, after)) =>
        if |after| == 0 || after[0] != 'm' then None
        else
          match DropSuffix(after[1..], Reset)
          case None => None
          case Some(s) => Some((code, s))
  }

  lemma ParseColoredOf(code: int, s: string)
    ensures ParseColored(Csi + IntToString(code) + "m" + s + Reset) == Some((code, s))
  {
    var after := "m" + (s + Reset);
    var rest := IntToString(code) + after;
    assert Csi + IntToString(code) + "m" + s + Reset == Csi + rest;
    DropPrefixOf(Csi, rest);
    ParseIntOf(code, after);
    assert after[0] == 'm' && after[1..] == s + Reset;
    DropSuffixOf(s, Reset);
  }

  /** `with_color` loses nothing: its output determines the colour code and
      the text. */
  lemma WithColorRoundTrip(c: Color, s: string)
    ensures ParseColored(WithColor(c, s)) == Some((ColorCode(c), s))
  {
    ParseColoredOf(ColorCode(c), s);
  }
}

=== FILE: filesystem.dfy ===
/** An immutable model of the part of a POSIX file system the cache touches:
    regular files holding bytes, and directories.  Every operation returns the
    store it leaves behind together with what it returned or raised, because
    some of Python's file operations fail after having changed the store. */
module FileSystem {
  import opened Wrappers

  newtype byte = x: int | 0 <= x < 256

  /** A path as its list of components: `a/b/c` is `["a", "b", "c"]`. */
  type Path = seq<string>

  /** The `OSError` subclasses (and the two other exceptions) the cache's file
      operations can raise, each with the path it concerns. */
  datatype IoError =
    | FileNotFound(path: Path)
    | FileExists(path: Path)
    | IsADirectory(path: Path)
    | NotADirectory(path: Path)
      /** `os.rename` of a directory moves the whole tree; the model does not
          move trees and raises this instead. */
    | DirectoryRename(path: Path)
      /** `UnicodeDecodeError` while reading a file in text mode. */
    | UndecodableText(path: Path)
      /** `UnicodeEncodeError` while writing a text the codec cannot represent. */
    | UnencodableText(path: Path)
      /** `TypeError`/`AttributeError` when the data handed to a write is not of
          the kind the mode expects (a `str` in text mode, a response in binary mode). */
    | WrongDataKind(path: Path)

  datatype Store = Store(files: map<Path, seq<byte>>, dirs: set<Path>)

  datatype Step<T> = Step(store: Store, result: Result<T, IoError>)

  /** No path is both a regular file and a directory. */
  predicate Wf(fs: Store) {
    fs.files.Keys !! fs.dirs
  }

  /** `os.path.exists`. */
  predicate Exists(fs: Store, p: Path) {
    p in fs.files || p in fs.dirs
  }

  function Parent(p: Path): Path {
    if |p| == 0 then [] else p[..|p| - 1]
  }

  /** The `st_size` of a directory: one block on the common Linux file systems.
      Only its being positive matters to the cache. */
  const DirEntrySize: nat := 4096

  /** `os.stat(p).st_size`. */
  function Size(fs: Store, p: Path): (r: Result<nat, IoError>)
    ensures r.Success? <==> Exists(fs, p)
    ensures p in fs.files ==> r == Success(|fs.files[p]|)
  {
    if p in fs.files then Success(|fs.files[p]|)
    else if p in fs.dirs then Success(DirEntrySize)
    else Failure(FileNotFound(p))
  }

  /** The error opening or creating `p` raises because of its parent, if any.  The
      directory a one-component path is resolved against always exists. */
  function ParentError(fs: Store, p: Path): Option<IoError> {
    if |p| <= 1 then None
    else if Parent(p) in fs.files then Some(NotADirectory(Parent(p)))
    else if Parent(p) !in fs.dirs then Some(FileNotFound(p))
    else None
  }

  /** `open(p, 'w')` / `open(p, 'wb')`: creates `p` or truncates it to nothing. */
  function OpenForWrite(fs: Store, p: Path): (r: Step<()>)
    ensures r.result.Success? <==> ParentError(fs, p).None? && p !in fs.dirs
    ensures r.result.Success? ==> r.store == fs.(files := fs.files[p := []])
    ensures r.result.Failure? ==> r.store == fs
  {
    if ParentError(fs, p).Some? then Step(fs, Failure(ParentError(fs, p).value))
    else if p in fs.dirs then Step(fs, Failure(IsADirectory(p)))
    else Step(fs.(files := fs.files[p := []]), Success(()))
  }

  /** `f.write(data)` on a file opened for writing: appends. */
  function Append(fs: Store, p: Path, data: seq<byte>): (r: Store)
    requires p in fs.files
    ensures r.dirs == fs.dirs && r.files == fs.files[p := fs.files[p] + data]
  {
    fs.(files := fs.files[p := fs.files[p] + data])
  }

  /** `open(p, 'rb').read()`. */
  function ReadFile(fs: Store, p: Path): (r: Result<seq<byte>, IoError>)
    ensures r.Success? <==> p in fs.files && p !in fs.dirs
    ensures r.Success? ==> r.value == fs.files[p]
  {
    if p in fs.dirs then Failure(IsADirectory(p))
    else if p !in fs.files then Failure(FileNotFound(p))
    else Success(fs.files[p])
  }

  /** `os.remove(p)`. */
  function RemoveFile(fs: Store, p: Path): (r: Step<()>)
    ensures r.result.Success? <==> p in fs.files && p !in fs.dirs
    ensures r.result.Success? ==> r.store == fs.(files := fs.files - {p})
    ensures r.result.Failure? ==> r.store == fs
  {
    if p in fs.dirs then Step(fs, Failure(IsADirectory(p)))
    else if p !in fs.files then Step(fs, Failure(FileNotFound(p)))
    else Step(fs.(files := fs.files - {p}), Success(()))
  }

  /** `os.rename(src, dst)` of a regular file: replaces any file at `dst`. */
  function Rename(fs: Store, src: Path, dst: Path): (r: Step<()>)
    ensures r.result.Success? ==>
              && src in fs.files
              && r.store == fs.(files := (fs.files - {src})[dst := fs.files[src]])
    ensures r.result.Failure? ==> r.store == fs
  {
    if src in fs.dirs then Step(fs, Failure(DirectoryRename(src)))
    else if src !in fs.files then Step(fs, Failure(FileNotFound(src)))
    else if ParentError(fs, dst).Some? then Step(fs, Failure(ParentError(fs, dst).value))
    else if dst in fs.dirs then Step(fs, Failure(IsADirectory(dst)))
    else Step(fs.(files := (fs.files - {src})[dst := fs.files[src]]), Success(()))
  }

  /** `os.mkdir(p)`. */
  function MkDir(fs: Store, p: Path): (r: Step<()>)
    ensures r.result.Success? ==> r.store == fs.(dirs := fs.dirs + {p}) && p !in fs.files
    ensures r.result.Failure? ==> r.store == fs
  {
    if Exists(fs, p) then Step(fs, Failure(FileExists(p)))
    else if ParentError(fs, p).Some? then Step(fs, Failure(ParentError(fs, p).value))
    else Step(fs.(dirs := fs.dirs + {p}), Success(()))
  }

  /** The non-empty prefixes of `p`: the directories `os.makedirs(p)` makes sure of. */
  function Prefixes(p: Path): set<Path> {
    set k | 1 <= k <= |p| :: p[..k]
  }

  lemma ParentPrefixes(p: Path)
    requires |p| > 0
    ensures Prefixes(Parent(p)) + {p} == Prefixes(p)
  {
    var q := Parent(p);
    forall x | x in Prefixes(q) ensures x in Prefixes(p) {
      var k :| 1 <= k <= |q| && x == q[..k];
      assert x == p[..k];
    }
    assert p == p[..|p|];
    forall x | x in Prefixes(p) ensures x in Prefixes(q) + {p} {
      var k :| 1 <= k <= |p| && x == p[..k];
      if k < |p| {
        assert x == q[..k];
      }
    }
  }

  /** `os.makedirs(p)`: creates the missing ancestors of `p` from the top down,
      then `p` itself; the directories made before a failure stay. */
  function MakeDirs(fs: Store, p: Path): (r: Step<()>)
    requires |p| > 0
    ensures r.store.files == fs.files
    ensures fs.dirs <= r.store.dirs <= fs.dirs + Prefixes(p)
    ensures (r.store.dirs - fs.dirs) !! fs.files.Keys
    ensures r.result.Success? ==> p in r.store.dirs
    ensures r.result.Failure? ==>
              var bad := r.result.error.path;
              bad in Prefixes(p) && (bad in fs.files || (bad == p && p in fs.dirs))
    decreases |p|
  {
    ParentPrefixes(p);
    if |p| > 1 && !Exists(fs, Parent(p)) then
      var up := MakeDirs(fs, Parent(p));
      if up.result.Failure? then up
      else MkDir(up.store, p)
    else
      MkDir(fs, p)
  }
}

=== FILE: network.dfy ===
/** `NetworkManager.download_page`: one HTTP attempt, classified by status.
    The network is scripted: each call is handed the outcome `session.get` would
    have had and the index `random.choice` would have drawn. */
module Network {
  import opened Wrappers
  import opened FileSystem
  import opened Payload

  /** The `proxies` constructor argument: the default `{}`, a list of https
      proxies (which may be empty), or a dict with string keys (the shape
      `requests` itself takes, such as `{'https': ...}`), which is `{}` only when empty. */
  datatype ProxySetting = NoProxies | ProxyList(proxies: seq<string>) | ProxyDict(entries: map<string, string>)

  /** The class attribute `pageDownloadTriesCount`. */
  const PageDownloadTriesCount: int := 3

  datatype NetworkManager = NetworkManager(proxies: ProxySetting, triesCount: int)

  /** `NetworkManager()` / `NetworkManager(proxies)`. */
  function NewNetworkManager(proxies: ProxySetting := NoProxies): NetworkManager {
    NetworkManager(proxies, PageDownloadTriesCount)
  }

  /** What one `session.get` does: raise `ConnectionError` (or one of its
      subclasses), raise another `requests` exception (named, for instance
      `ReadTimeout`, `TooManyRedirects` or `MissingSchema`), or answer. */
  datatype HttpOutcome =
    | ConnectionFailure
    | OtherRequestError(name: string)
    | Reply(status: int, text: string, body: seq<byte>)

  /** One scripted call of `download_page`: the index the proxy draw yields and
      the outcome of the request. */
  datatype Attempt = Attempt(pick: nat, outcome: HttpOutcome)

  /** The exceptions that leave `download_page`. */
  datatype NetError =
    | PageNotFound
    | InternalServerError
      /** `IndexError` from `random.choice` on an empty proxy list. */
    | EmptyProxyList
      /** `KeyError` from `random.choice` on a non-empty dict: it indexes the
          dict with an integer, which no string key matches. */
    | ProxyDictDraw
      /** An exception of `session.get` that `except ConnectionError` does not
          catch, passed on unchanged. */
    | RequestFailed(name: string)
      /** `UnboundLocalError`: with a non-positive tries count the loop never
          runs and `response` is read unassigned. */
    | ResponseUnbound

  /** The proxy for one attempt: none for a setting equal to `{}`, otherwise
      `random.choice` of it: an element of a non-empty list; an empty list is not
      `{}`, so the draw is made and fails, and so does a draw from a non-empty dict. */
  function ChooseProxy(s: ProxySetting, pick: nat): (r: Result<Option<string>, NetError>)
    ensures s.NoProxies? || (s.ProxyDict? && |s.entries| == 0) <==> r == Success(None)
    ensures s.ProxyList? && |s.proxies| == 0 <==> r == Failure(EmptyProxyList)
    ensures s.ProxyDict? && |s.entries| > 0 <==> r == Failure(ProxyDictDraw)
    ensures s.ProxyList? && |s.proxies| > 0 ==> r.Success? && r.value.Some? && r.value.value in s.proxies
  {
    match s
    case NoProxies => Success(None)
    case ProxyList(list) =>
      if |list| == 0 then Failure(EmptyProxyList) else Success(Some(list[pick % |list|]))
    case ProxyDict(entries) =>
      if |entries| == 0 then Success(None) else Failure(ProxyDictDraw)
  }

  /** Every proxy of a non-empty list is a possible draw. */
  lemma EveryProxyReachable(list: seq<string>, k: nat)
    requires k < |list|
    ensures ChooseProxy(ProxyList(list), k) == Success(Some(list[k]))
  {
  }

  /** The record of one `download_page` call: the proxy used, how many requests
      went out, and what was returned or raised. */
  datatype Download = Download(proxy: Option<string>, requests: nat, result: Result<Option<Payload>, NetError>)

  /** Classification of an answer: 200 is the page (the response itself in binary
      mode, its text otherwise), 404 and 500 raise, any other status is `None`. */
  function Classify(status: int, text: string, body: seq<byte>, binary: bool): (r: Result<Option<Payload>, NetError>)
    ensures r.Success? && r.value.Some? <==> status == 200
    ensures status == 404 <==> r == Failure(PageNotFound)
    ensures status == 500 <==> r == Failure(InternalServerError)
    ensures r == Success(None) <==> status !in {200, 404, 500}
    ensures status == 200 && binary ==> r.value.value == Response(status, text, body)
    ensures status == 200 && !binary ==> r.value.value == Text(text)
  {
    if status == 200 then Success(Some(if binary then Response(status, text, body) else Text(text)))
    else if status == 404 then Failure(PageNotFound)
    else if status == 500 then Failure(InternalServerError)
    else Success(None)
  }

  /** `download_page`.  The `return None` after the `try` sits inside the loop
      body, so whatever the tries count, at most one request goes out: a
      `ConnectionError` yields `None` at once, any other exception of the
      request leaves the call. */
  function DownloadPage(m: NetworkManager, binary: bool, a: Attempt): (r: Download)
    ensures r.requests <= 1
    ensures r.requests == 1 <==> m.triesCount > 0 && ChooseProxy(m.proxies, a.pick).Success?
    ensures m.triesCount <= 0 ==> r.result == Failure(ResponseUnbound)
    ensures m.triesCount > 0 && ChooseProxy(m.proxies, a.pick).Failure? ==>
              r.requests == 0 && r.result == Failure(ChooseProxy(m.proxies, a.pick).error)
    ensures r.requests == 1 ==> r.proxy == ChooseProxy(m.proxies, a.pick).value
    ensures r.requests == 1 && a.outcome.ConnectionFailure? ==> r.result == Success(None)
    ensures r.requests == 1 && a.outcome.OtherRequestError? ==> r.result == Failure(RequestFailed(a.outcome.name))
    ensures r.requests == 1 && a.outcome.Reply? ==>
              r.result == Classify(a.outcome.status, a.outcome.text, a.outcome.body, binary)
    ensures r.result.Success? && r.result.value.Some? ==>
              if binary then r.result.value.value.Response? else r.result.value.value.Text?
  {
    if m.triesCount <= 0 then Download(None, 0, Failure(ResponseUnbound))
    else match ChooseProxy(m.proxies, a.pick)
      case Failure(e) => Download(None, 0, Failure(e))
      case Success(proxy) =>
        match a.outcome
        case ConnectionFailure => Download(proxy, 1, Success(None))
        case OtherRequestError(name) => Download(proxy, 1, Failure(RequestFailed(name)))
        case Reply(status, text, body) => Download(proxy, 1, Classify(status, text, body, binary))
  }

  /** The tries count only decides whether the single request is made at all. */
  lemma TriesCountIrrelevant(m: NetworkManager, n: int, binary: bool, a: Attempt)
    requires m.triesCount > 0 && n > 0
    ensures DownloadPage(m.(triesCount := n), binary, a) == DownloadPage(m, binary, a)
  {
  }
}

=== FILE: parsing.dfy ===
/** `BasicParser.get_page`: serve a page from the cache, or download it with a
    budget of three failed tries, caching the page or, on exhaustion, an error
    marker.  The `is_cache_used` flag it leaves decides the politeness delay
    before the next page. */
module Parsing {
  import opened Wrappers
  import opened FileSystem
  import opened TextIo
  import opened Payload
  import opened Cache
  import opened Network

  /** The parser's state: its cache, its network manager, the (pure) captcha
      test of the subclass, and whether the previous page came from the cache. */
  datatype Parser = Parser(
    cache: FileCache,
    net: NetworkManager,
    isCaptchaRequired: Option<Payload> -> bool,
    isCacheUsed: bool)

  /** A fresh parser: `is_cache_used` starts out true. */
  function NewParser(cache: FileCache, net: NetworkManager, isCaptchaRequired: Option<Payload> -> bool): (p: Parser)
    ensures p.isCacheUsed
  {
    Parser(cache, net, isCaptchaRequired, true)
  }

  /** The largest delay `get_sleep_time` draws, in seconds. */
  const MaxSleep: int := 10

  /** `get_sleep_time`, given the value `random.randint(0, 10)` would return. */
  function SleepTime(p: Parser, draw: int): (r: int)
    requires 0 <= draw <= MaxSleep
    ensures 0 <= r <= MaxSleep
    ensures p.isCacheUsed ==> r == 0
    ensures !p.isCacheUsed ==> r == draw
  {
    if p.isCacheUsed then 0 else draw
  }

  /** No delay before the first page, and a fetched page may be followed by any
      delay from 0 to 10 seconds. */
  lemma SleepTimes(p: Parser, d: int)
    requires 0 <= d <= MaxSleep
    ensures SleepTime(NewParser(p.cache, p.net, p.isCaptchaRequired), d) == 0
    ensures !p.isCacheUsed ==> SleepTime(p, d) == d
  {
  }

  // ---------------------------------------------------------------- the download loop

  /** The download an attempt amounts to for this parser. */
  function Fetch(p: Parser, binary: bool, a: Attempt): Result<Option<Payload>, NetError> {
    DownloadPage(p.net, binary, a).result
  }

  /** A result the loop goes on after: a captcha, or a falsy one. */
  predicate Quiet(p: Parser, binary: bool, a: Attempt) {
    Fetch(p, binary, a).Success? &&
    var d := Fetch(p, binary, a).value;
    p.isCaptchaRequired(d) || !Truthy(d)
  }

  /** A result that costs a try: falsy and no captcha. */
  predicate Fails(p: Parser, binary: bool, a: Attempt) {
    Fetch(p, binary, a).Success? &&
    var d := Fetch(p, binary, a).value;
    !p.isCaptchaRequired(d) && !Truthy(d)
  }

  /** The number of attempts that cost a try. */
  function FailCount(p: Parser, binary: bool, s: seq<Attempt>): nat
    decreases |s|
  {
    if |s| == 0 then 0
    else (if Fails(p, binary, s[0]) then 1 else 0) + FailCount(p, binary, s[1..])
  }

  /** The attempts used by the loop, seen from its first attempt: the first
      attempt followed by those the rest of the loop used. */
  lemma ConsPrefix(p: Parser, binary: bool, script: seq<Attempt>, k: nat)
    requires 0 < |script| && k <= |script| - 1
    ensures var n := |script| - 1 - k;
            && script[..n + 1] == [script[0]] + script[1..][..n]
            && FailCount(p, binary, script[..n + 1]) == (if Fails(p, binary, script[0]) then 1 else 0) + FailCount(p, binary, script[1..][..n])
            && script[1..][|script[1..]| - k..] == script[|script| - k..]
            && (k == 0 ==> script[..n + 1] == script && script[1..][..n] == script[1..])
  {
    var n := |script| - 1 - k;
    assert script[..n + 1] == [script[0]] + script[1..][..n];
    assert script[..n + 1][1..] == script[1..][..n];
  }

  /** How the loop ended: with a page, with the budget spent, with an exception of
      `download_page`, or because the scripted network ran out. */
  datatype LoopEnd = Fetched(data: Payload) | Exhausted | Raised(error: NetError) | ScriptEnded

  /** The end of the loop and the attempts it left unused. */
  datatype Loop = Loop(end: LoopEnd, rest: seq<Attempt>)

  /** What the loop promises, for a budget of `tries`, about the attempts it used
      (`script` up to `r.rest`): every attempt but the last one used was quiet,
      the tries spent never exceed the budget, and the last attempt explains how
      the loop ended. */
  ghost predicate LoopSpec(p: Parser, binary: bool, tries: nat, script: seq<Attempt>, r: Loop) {
    && |r.rest| <= |script| && r.rest == script[|script| - |r.rest|..]
    && var used := script[..|script| - |r.rest|];
    && (forall i | 0 <= i < |used| - 1 :: Quiet(p, binary, used[i]))
    && (r.end.ScriptEnded? ==>
          && r.rest == []
          && (forall i | 0 <= i < |script| :: Quiet(p, binary, script[i]))
          && FailCount(p, binary, script) < tries)
    && (r.end.Fetched? ==>
          && |used| > 0
          && Fetch(p, binary, used[|used| - 1]) == Success(Some(r.end.data))
          && !p.isCaptchaRequired(Some(r.end.data)) && Truthy(Some(r.end.data))
          && FailCount(p, binary, used) < tries)
    && (r.end.Exhausted? ==>
          && |used| > 0
          && Fails(p, binary, used[|used| - 1])
          && FailCount(p, binary, used) == tries)
    && (r.end.Raised? ==>
          && |used| > 0
          && Fetch(p, binary, used[|used| - 1]) == Failure(r.end.error)
          && FailCount(p, binary, used) < tries)
  }

  /** The loop's promise carries over a quiet first attempt, which costs one try
      exactly when it fails. */
  lemma LoopSpecCons(p: Parser, binary: bool, tries: nat, script: seq<Attempt>, r: Loop)
    requires |script| > 0 && Quiet(p, binary, script[0])
    requires var cost := if Fails(p, binary, script[0]) then 1 else 0;
             tries > cost && LoopSpec(p, binary, tries - cost, script[1..], r)
    ensures LoopSpec(p, binary, tries, script, r)
  {
    ConsPrefix(p, binary, script, |r.rest|);
    var used := script[..|script| - |r.rest|];
    var tail := script[1..][..|script[1..]| - |r.rest|];
    assert used == [script[0]] + tail;
    forall i | 0 <= i < |used| - 1 ensures Quiet(p, binary, used[i]) {
      if i > 0 {
        assert used[i] == tail[i - 1];
      }
    }
    if r.end.ScriptEnded? {
      forall i | 0 <= i < |script| ensures Quiet(p, binary, script[i]) {
        if i > 0 {
          assert script[i] == script[1..][i - 1];
        }
      }
    }
  }

  /** The loop's promise when the first attempt ends it. */
  lemma LoopSpecLast(p: Parser, binary: bool, tries: nat, script: seq<Attempt>, r: Loop)
    requires |script| > 0 && r.rest == script[1..] && tries > 0
    requires r.end.Fetched? ==>
               && Fetch(p, binary, script[0]) == Success(Some(r.end.data))
               && !p.isCaptchaRequired(Some(r.end.data)) && Truthy(Some(r.end.data))
    requires r.end.Exhausted? ==> Fails(p, binary, script[0]) && tries == 1
    requires r.end.Raised? ==> Fetch(p, binary, script[0]) == Failure(r.end.error)
    requires !r.end.ScriptEnded?
    ensures LoopSpec(p, binary, tries, script, r)
  {
    var used := script[..|script| - |r.rest|];
    assert used == [script[0]];
    assert FailCount(p, binary, used) == (if Fails(p, binary, script[0]) then 1 else 0) + FailCount(p, binary, used[1..]);
  }

  /** The loop's promise when `download_page` raises on the first attempt. */
  lemma EndRaised(p: Parser, binary: bool, tries: nat, script: seq<Attempt>, e: NetError)
    requires |script| > 0 && tries > 0 && Fetch(p, binary, script[0]) == Failure(e)
    ensures LoopSpec(p, binary, tries, script, Loop(Raised(e), script[1..]))
  {
    LoopSpecLast(p, binary, tries, script, Loop(Raised(e), script[1..]));
  }

  /** The loop's promise when the first attempt yields a page. */
  lemma EndFetched(p: Parser, binary: bool, tries: nat, script: seq<Attempt>, data: Option<Payload>)
    requires |script| > 0 && tries > 0 && Fetch(p, binary, script[0]) == Success(data)
    requires !p.isCaptchaRequired(data) && Truthy(data)
    ensures LoopSpec(p, binary, tries, script, Loop(Fetched(data.value), script[1..]))
  {
    LoopSpecLast(p, binary, tries, script, Loop(Fetched(data.value), script[1..]));
  }

  /** The loop's promise when the first attempt spends the last try. */
  lemma EndExhausted(p: Parser, binary: bool, tries: nat, script: seq<Attempt>, data: Option<Payload>)
    requires |script| > 0 && tries == 1 && Fetch(p, binary, script[0]) == Success(data)
    requires !p.isCaptchaRequired(data) && !Truthy(data)
    ensures LoopSpec(p, binary, tries, script, Loop(Exhausted, script[1..]))
  {
    LoopSpecLast(p, binary, tries, script, Loop(Exhausted, script[1..]));
  }

  /** The loop's promise after a captcha, which costs no try. */
  lemma AfterCaptcha(p: Parser, binary: bool, tries: nat, script: seq<Attempt>, data: Option<Payload>, r: Loop)
    requires |script| > 0 && tries > 0 && Fetch(p, binary, script[0]) == Success(data)
    requires p.isCaptchaRequired(data) && LoopSpec(p, binary, tries, script[1..], r)
    ensures LoopSpec(p, binary, tries, script, r)
  {
    LoopSpecCons(p, binary, tries, script, r);
  }

  /** The loop's promise after a failed attempt that leaves tries over. */
  lemma AfterFailure(p: Parser, binary: bool, tries: nat, script: seq<Attempt>, data: Option<Payload>, r: Loop)
    requires |script| > 0 && tries > 1 && Fetch(p, binary, script[0]) == Success(data)
    requires !p.isCaptchaRequired(data) && !Truthy(data) && LoopSpec(p, binary, tries - 1, script[1..], r)
    ensures LoopSpec(p, binary, tries, script, r)
  {
    LoopSpecCons(p, binary, tries, script, r);
  }

  /** The `while tries > 0` loop: a captcha is handed to `solve_captcha` (a hook
      with no effect on the model) and the loop goes on without spending a try; a
      truthy result ends it; anything else spends a try, and the last try ends it. */
  function DownloadLoop(p: Parser, binary: bool, tries: nat, script: seq<Attempt>): (r: Loop)
    requires tries > 0
    ensures LoopSpec(p, binary, tries, script, r) == true
    decreases |script|
  {
    if |script| == 0 then Loop(ScriptEnded, script)
    else
      match Fetch(p, binary, script[0])
      case Failure(e) =>
        EndRaised(p, binary, tries, script, e);
        Loop(Raised(e), script[1..])
      case Success(data) =>
        if p.isCaptchaRequired(data) then
          var r := DownloadLoop(p, binary, tries, script[1..]);
          AfterCaptcha(p, binary, tries, script, data, r);
          r
        else if Truthy(data) then
          EndFetched(p, binary, tries, script, data);
          Loop(Fetched(data.value), script[1..])
        else if tries == 1 then
          EndExhausted(p, binary, tries, script, data);
          Loop(Exhausted, script[1..])
        else
          var r := DownloadLoop(p, binary, tries - 1, script[1..]);
          AfterFailure(p, binary, tries, script, data, r);
          r
  }

  // ---------------------------------------------------------------- get_page

  /** The budget of failed tries `get_page` starts with. */
  const Tries: nat := 3

  /** The marker text written when the budget is spent. */
  const ErrorMarkerText: string := "PageDownloadException"

  const CacheErrorMessage: string := "Cache error"
  const DownloadErrorMessage: string := "Could not get page"

  /** The exceptions that leave `get_page`. */
  datatype PageError =
    | PageDownloadException(message: string)
    | Network(netError: NetError)
    | Io(ioError: IoError)

  /** How `get_page` ends; `OutOfScript` is the model's own: the scripted network
      ran out while the loop still wanted to go on. */
  datatype Outcome = Returned(data: Payload) | Threw(error: PageError) | OutOfScript

  /** What a call leaves behind: the delay slept first, the parser (its
      `is_cache_used`), the store, the unused attempts, and the outcome. */
  datatype PageResult = PageResult(delay: int, parser: Parser, store: Store, rest: seq<Attempt>, outcome: Outcome)

  /** The number of `download_page` calls a call made. */
  function Downloads(script: seq<Attempt>, r: PageResult): int {
    |script| - |r.rest|
  }

  /** What `get_page` does once the download loop has ended on a miss, given the
      delay slept and the store the lookup left: a page is written to the cache,
      a spent budget writes the marker and raises, an exception of
      `download_page` passes through. */
  function AfterLoop(p: Parser, st: Store, url: string, binary: bool, delay: int, loop: Loop): (r: PageResult)
    requires loop.end.Fetched? ==> !p.isCaptchaRequired(Some(loop.end.data))
    ensures r.delay == delay && r.rest == loop.rest
    ensures r.parser == p || r.parser == p.(isCacheUsed := false)
    ensures r.parser != p ==> r.outcome.Returned?
    ensures r.outcome.Returned? ==> loop.end.Fetched? && r.parser == p.(isCacheUsed := false)
    ensures r.outcome.Returned? ==> r.outcome.data == loop.end.data
    ensures loop.end.ScriptEnded? <==> r.outcome.OutOfScript?
    ensures loop.end.Raised? ==> r.outcome == Threw(Network(loop.end.error)) && r.store == st && r.parser == p
    ensures loop.end.Exhausted? ==>
              var saved := SaveErrorInCache(p.cache, st, url, ErrorMarkerText);
              && r.store == saved.store && r.parser == p
              && (saved.result.Failure? ==> r.outcome == Threw(Io(saved.result.error)))
              && (saved.result.Success? ==> r.outcome == Threw(PageDownloadException(DownloadErrorMessage)))
    ensures loop.end.Fetched? ==>
              && r.store == WriteToCache(p.cache, st, url, loop.end.data, binary).store
              && (r.outcome.Returned? <==> WriteToCache(p.cache, st, url, loop.end.data, binary).result.Success?)
  {
    match loop.end
    case ScriptEnded => PageResult(delay, p, st, loop.rest, OutOfScript)
    case Raised(e) => PageResult(delay, p, st, loop.rest, Threw(Network(e)))
    case Exhausted =>
      var saved := SaveErrorInCache(p.cache, st, url, ErrorMarkerText);
      if saved.result.Failure? then PageResult(delay, p, saved.store, loop.rest, Threw(Io(saved.result.error)))
      else PageResult(delay, p, saved.store, loop.rest, Threw(PageDownloadException(DownloadErrorMessage)))
    case Fetched(data) =>
      if !p.isCaptchaRequired(Some(data)) then
        var written := WriteToCache(p.cache, st, url, data, binary);
        if written.result.Failure? then PageResult(delay, p, written.store, loop.rest, Threw(Io(written.result.error)))
        else PageResult(delay, p.(isCacheUsed := false), written.store, loop.rest, Returned(data))
      else
        // The branch that logs "contains captcha data": the loop only ends with
        // a page the captcha test rejected, so it is never taken.
        PageResult(delay, p, st, loop.rest, Returned(data))
  }

  /** `get_page(url, binary)`, with the value the delay's random draw yields and
      the scripted network.  A page found by `is_in_cache` (which may first
      migrate a legacy file) is read back, or the call fails when the marker
      hides it; otherwise the download loop runs (the marker is not consulted)
      and `AfterLoop` finishes the call. */
  function GetPage(p: Parser, fs: Store, url: string, binary: bool, draw: int, script: seq<Attempt>): (r: PageResult)
    requires 0 <= draw <= MaxSleep
    ensures r.delay == SleepTime(p, draw)
    ensures 0 <= r.delay <= MaxSleep && (p.isCacheUsed ==> r.delay == 0)
    ensures IsInCache(p.cache, fs, url).result.Failure? ==>
              && r.outcome == Threw(Io(IsInCache(p.cache, fs, url).result.error))
              && r.store == fs && r.parser == p && Downloads(script, r) == 0
    ensures |r.rest| <= |script| && r.rest == script[|script| - |r.rest|..]
    ensures r.parser == p.(isCacheUsed := r.parser.isCacheUsed)
    ensures r.parser.isCacheUsed != p.isCacheUsed ==> r.outcome.Returned?
    ensures r.outcome.Returned? ==> (r.parser.isCacheUsed <==> Downloads(script, r) == 0)
    ensures IsInCache(p.cache, fs, url).result != Success(false) ==> Downloads(script, r) == 0
    ensures FailCount(p, binary, script[..Downloads(script, r)]) <= Tries
  {
    var delay := SleepTime(p, draw);
    var lookup := IsInCache(p.cache, fs, url);
    match lookup.result
    case Failure(e) => PageResult(delay, p, lookup.store, script, Threw(Io(e)))
    case Success(true) =>
      (match GetFile(p.cache, lookup.store, url, binary)
       case Failure(e) => PageResult(delay, p, lookup.store, script, Threw(Io(e)))
       case Success(None) =>
         PageResult(delay, p, lookup.store, script, Threw(PageDownloadException(CacheErrorMessage)))
       case Success(Some(data)) =>
         PageResult(delay, p.(isCacheUsed := true), lookup.store, script, Returned(data)))
    case Success(false) =>
      var loop := DownloadLoop(p, binary, Tries, script);
      assert loop.end.ScriptEnded? ==> script[..|script|] == script;
      AfterLoop(p, lookup.store, url, binary, delay, loop)
  }

  // ---------------------------------------------------------------- properties of get_page

  /** A cache hit without a marker, whether the page was already in place or a
      legacy file was first moved there: no download, the store is what the
      lookup left, and the payload read from it is returned (setting
      `is_cache_used`) or the read's error raised (leaving the parser alone). */
  lemma CacheHitServes(p: Parser, fs: Store, url: string, binary: bool, draw: int, script: seq<Attempt>)
    requires 0 <= draw <= MaxSleep
    requires IsInCache(p.cache, fs, url).result == Success(true) && !IsInCacheError(p.cache, fs, url)
    ensures var r := GetPage(p, fs, url, binary, draw, script);
            var st := IsInCache(p.cache, fs, url).store;
            var path := ShardedPath(p.cache, url);
            && Downloads(script, r) == 0 && r.store == st
            && (binary ==>
                  r.outcome == if ReadFile(st, path).Success? then Returned(Bytes(ReadFile(st, path).value))
                               else Threw(Io(ReadFile(st, path).error)))
            && (!binary ==>
                  r.outcome == if ReadText(p.cache.codec, st, path).Success? then Returned(Text(ReadText(p.cache.codec, st, path).value))
                               else Threw(Io(ReadText(p.cache.codec, st, path).error)))
            && r.parser == if r.outcome.Returned? then p.(isCacheUsed := true) else p
  {
    Layout(p.cache, url);
  }

  /** A cache hit whose marker exists raises "Cache error" without downloading
      and without touching `is_cache_used`. */
  lemma CacheHitWithMarker(p: Parser, fs: Store, url: string, binary: bool, draw: int, script: seq<Attempt>)
    requires 0 <= draw <= MaxSleep
    requires IsInCache(p.cache, fs, url).result == Success(true) && IsInCacheError(p.cache, fs, url)
    ensures var r := GetPage(p, fs, url, binary, draw, script);
            && r.outcome == Threw(PageDownloadException(CacheErrorMessage))
            && Downloads(script, r) == 0 && r.parser == p
  {
    Layout(p.cache, url);
  }

  /** A miss always goes to the network, whether or not a marker records an
      earlier failure: the marker is never consulted on this path. */
  lemma MissAlwaysDownloads(p: Parser, fs: Store, url: string, binary: bool, draw: int, script: seq<Attempt>)
    requires 0 <= draw <= MaxSleep
    requires IsInCache(p.cache, fs, url).result == Success(false) && |script| > 0
    ensures var r := GetPage(p, fs, url, binary, draw, script);
            Downloads(script, r) >= 1 && r.outcome != Threw(PageDownloadException(CacheErrorMessage))
  {
    var loop := DownloadLoop(p, binary, Tries, script);
    assert |loop.rest| < |script|;
  }

  /** A marker alone does not stop a fetch: with no payload, a good first answer
      is returned and cached although the marker exists. */
  lemma MarkerDoesNotShortCircuit(p: Parser, fs: Store, url: string, binary: bool, draw: int, a: Attempt, rest: seq<Attempt>)
    requires 0 <= draw <= MaxSleep
    requires Ready(p.cache, fs, url) && !Exists(fs, LegacyPath(p.cache, url)) && !Present(p.cache, fs, url)
    requires IsInCacheError(p.cache, fs, url)
    requires Fetch(p, binary, a).Success? && Fetch(p, binary, a).value.Some?
    requires Truthy(Fetch(p, binary, a).value) && !p.isCaptchaRequired(Fetch(p, binary, a).value)
    requires binary || Encodes(p.cache.codec, Fetch(p, binary, a).value.value.text)
    ensures var r := GetPage(p, fs, url, binary, draw, [a] + rest);
            && r.outcome == Returned(Fetch(p, binary, a).value.value)
            && Downloads([a] + rest, r) == 1 && !r.parser.isCacheUsed
  {
    WriteSucceeds(p.cache, fs, url);
    assert ([a] + rest)[0] == a && ([a] + rest)[1..] == rest;
  }

  /** A spent budget: exactly three tries were spent, the marker now exists and
      holds "PageDownloadException", the call raises "Could not get page", and
      `is_cache_used` is untouched.  (A codec that cannot encode the marker text
      leaves the marker empty and raises its `UnicodeEncodeError` instead.) */
  lemma ExhaustionWritesMarker(p: Parser, fs: Store, url: string, binary: bool, draw: int, script: seq<Attempt>)
    requires 0 <= draw <= MaxSleep
    requires Ready(p.cache, fs, url) && IsInCache(p.cache, fs, url).result == Success(false)
    requires DownloadLoop(p, binary, Tries, script).end.Exhausted?
    ensures var r := GetPage(p, fs, url, binary, draw, script);
            && IsInCacheError(p.cache, r.store, url)
            && (Encodes(p.cache.codec, ErrorMarkerText) ==>
                  && r.outcome == Threw(PageDownloadException(DownloadErrorMessage))
                  && r.store.files[ErrorPath(p.cache, url)] == p.cache.codec.encode(ErrorMarkerText).value)
            && (!Encodes(p.cache.codec, ErrorMarkerText) ==>
                  && r.outcome == Threw(Io(UnencodableText(ErrorPath(p.cache, url))))
                  && r.store.files[ErrorPath(p.cache, url)] == [])
            && r.parser == p
            && FailCount(p, binary, script[..Downloads(script, r)]) == Tries
  {
    LookupKeepsReady(p.cache, fs, url);
    var st := IsInCache(p.cache, fs, url).store;
    InitializedHoldsShards(p.cache, st, url);
    Layout(p.cache, url);
  }

  /** An exception of `download_page` leaves `get_page` as it is: no marker is
      written and `is_cache_used` is untouched. */
  lemma NetworkErrorPropagates(p: Parser, fs: Store, url: string, binary: bool, draw: int, script: seq<Attempt>)
    requires 0 <= draw <= MaxSleep
    requires IsInCache(p.cache, fs, url).result == Success(false)
    requires DownloadLoop(p, binary, Tries, script).end.Raised?
    ensures var r := GetPage(p, fs, url, binary, draw, script);
            && r.outcome == Threw(Network(DownloadLoop(p, binary, Tries, script).end.error))
            && r.store == IsInCache(p.cache, fs, url).store
            && (IsInCacheError(p.cache, r.store, url) <==> IsInCacheError(p.cache, fs, url))
            && r.parser == p
  {
    Layout(p.cache, url);
  }

  /** A call that downloaded a page leaves it written to the cache: the store is
      what `write_to_cache` made of the looked-up store, still ready, with no
      legacy file and no marker. */
  lemma FetchedIsWritten(p: Parser, fs: Store, url: string, binary: bool, draw: int, script: seq<Attempt>)
    requires 0 <= draw <= MaxSleep
    requires Ready(p.cache, fs, url) && !IsInCacheError(p.cache, fs, url)
    requires var r := GetPage(p, fs, url, binary, draw, script);
             r.outcome.Returned? && !r.parser.isCacheUsed
    ensures var r := GetPage(p, fs, url, binary, draw, script);
            var st := IsInCache(p.cache, fs, url).store;
            && (if binary then r.outcome.data.Response? else r.outcome.data.Text?)
            && WriteToCache(p.cache, st, url, r.outcome.data, binary).result.Success?
            && r.store == WriteToCache(p.cache, st, url, r.outcome.data, binary).store
            && Ready(p.cache, r.store, url) && !IsInCacheError(p.cache, r.store, url)
            && !Exists(r.store, LegacyPath(p.cache, url))
  {
    var c := p.cache;
    LookupKeepsReady(c, fs, url);
    var st := IsInCache(c, fs, url).store;
    WriteSucceeds(c, st, url);
    Layout(c, url);
  }

  /** The other direction: when the loop ends with a page, `get_page` writes it
      to the cache and, once the write succeeds, returns it and clears
      `is_cache_used`.  On a ready cache the write fails only on a text the codec
      cannot encode, which raises with the parser untouched. */
  lemma FetchedIsReturned(p: Parser, fs: Store, url: string, binary: bool, draw: int, script: seq<Attempt>)
    requires 0 <= draw <= MaxSleep
    requires Ready(p.cache, fs, url) && IsInCache(p.cache, fs, url).result == Success(false)
    requires DownloadLoop(p, binary, Tries, script).end.Fetched?
    ensures var loop := DownloadLoop(p, binary, Tries, script);
            var data := loop.end.data;
            var r := GetPage(p, fs, url, binary, draw, script);
            var w := WriteToCache(p.cache, IsInCache(p.cache, fs, url).store, url, data, binary);
            && (if binary then data.Response? else data.Text?)
            && (w.result.Success? <==> binary || (data.Text? && Encodes(p.cache.codec, data.text)))
            && r.store == w.store && r.rest == loop.rest
            && (w.result.Success? ==> r.outcome == Returned(data) && r.parser == p.(isCacheUsed := false))
            && (w.result.Failure? ==> r.outcome == Threw(Io(UnencodableText(ShardedPath(p.cache, url)))) && r.parser == p)
  {
    var c := p.cache;
    LookupKeepsReady(c, fs, url);
    var st := IsInCache(c, fs, url).store;
    WriteSucceeds(c, st, url);
    var loop := DownloadLoop(p, binary, Tries, script);
    var used := script[..|script| - |loop.rest|];
    assert Fetch(p, binary, used[|used| - 1]) == Success(Some(loop.end.data));
    assert !p.isCaptchaRequired(Some(loop.end.data));
  }

  /** A page fetched in text mode is served from the cache by the next call,
      with its line endings normalised, without a download; the next call is
      preceded by the politeness delay because the first one went to the network. */
  lemma FetchedTextIsServedNext(p: Parser, fs: Store, url: string, draw: int, script: seq<Attempt>, draw2: int, script2: seq<Attempt>)
    requires 0 <= draw <= MaxSleep && 0 <= draw2 <= MaxSleep
    requires Ready(p.cache, fs, url) && !IsInCacheError(p.cache, fs, url)
    requires Lossless(p.cache.codec) && p.cache.codec.encode("") == Some([])
    requires var r := GetPage(p, fs, url, false, draw, script);
             r.outcome.Returned? && !r.parser.isCacheUsed
    ensures var r := GetPage(p, fs, url, false, draw, script);
            var r2 := GetPage(r.parser, r.store, url, false, draw2, script2);
            && r.outcome.data.Text?
            && r2.outcome == Returned(Text(TranslateNewlines(r.outcome.data.text)))
            && Downloads(script2, r2) == 0 && r2.parser.isCacheUsed && r2.delay == draw2
  {
    var c := p.cache;
    FetchedIsWritten(p, fs, url, false, draw, script);
    var r := GetPage(p, fs, url, false, draw, script);
    var text := r.outcome.data.text;
    var path := ShardedPath(c, url);
    assert r.store.files[path] == c.codec.encode(text).value;
    assert text != "";
    assert c.codec.encode(text).value != [] by {
      assert c.codec.decode(c.codec.encode("").value) == Some("");
      assert c.codec.decode(c.codec.encode(text).value) == Some(text);
    }
    assert ReadText(c.codec, r.store, path) == Success(TranslateNewlines(text));
    CacheHitServes(r.parser, r.store, url, false, draw2, script2);
  }

  /** A page fetched in binary mode: its body comes back from the cache as bytes
      when it is not empty; an empty body leaves an empty file, so the next call
      is a miss and downloads again. */
  lemma FetchedBinaryIsServedNext(p: Parser, fs: Store, url: string, draw: int, script: seq<Attempt>, draw2: int, script2: seq<Attempt>)
    requires 0 <= draw <= MaxSleep && 0 <= draw2 <= MaxSleep
    requires Ready(p.cache, fs, url) && !IsInCacheError(p.cache, fs, url)
    requires var r := GetPage(p, fs, url, true, draw, script);
             r.outcome.Returned? && !r.parser.isCacheUsed
    ensures var r := GetPage(p, fs, url, true, draw, script);
            var r2 := GetPage(r.parser, r.store, url, true, draw2, script2);
            && r.outcome.data.Response?
            && (|r.outcome.data.body| > 0 ==>
                  r2.outcome == Returned(Bytes(r.outcome.data.body)) && Downloads(script2, r2) == 0)
            && (|r.outcome.data.body| == 0 && |script2| > 0 ==> Downloads(script2, r2) >= 1)
  {
    FetchedIsWritten(p, fs, url, true, draw, script);
    var r := GetPage(p, fs, url, true, draw, script);
    var path := ShardedPath(p.cache, url);
    assert r.store.files[path] == r.outcome.data.body;
    if |r.outcome.data.body| > 0 {
      CacheHitServes(r.parser, r.store, url, true, draw2, script2);
    } else if |script2| > 0 {
      assert IsInCache(p.cache, r.store, url).result == Success(false);
      MissAlwaysDownloads(r.parser, r.store, url, true, draw2, script2);
    }
  }
}

=== FILE: payload.dfy ===
/** The values the fetch path hands around: page text, the bytes of a cached
    binary file, and the `requests` response object a binary download returns. */
module Payload {
  import opened Wrappers
  import opened FileSystem

  datatype Payload =
    | Text(text: string)
    | Bytes(bytes: seq<byte>)
      /** A `requests.Response`: its status, its decoded `.text` and its raw body. */
    | Response(status: int, text: string, body: seq<byte>)

  /** Python truthiness of what a download or a cache read yields: `None` and empty
      `str`/`bytes` are false; a response is true unless its status is a client or
      server error, 400 to 599 (`Response.__bool__` is `Response.ok`, which is
      false exactly when `raise_for_status` raises). */
  predicate Truthy(d: Option<Payload>) {
    match d
    case None => false
    case Some(Text(t)) => |t| > 0
    case Some(Bytes(b)) => |b| > 0
    case Some(Response(status, _, _)) => !(400 <= status < 600)
  }

  /** The chunk size `write_to_cache` asks `iter_content` for. */
  const ChunkSize: nat := 1024

  /** `response.iter_content(chunk_size=n)` on a fully read body: consecutive
      slices of `n` bytes, the last one possibly shorter. */
  function Chunks(body: seq<byte>, n: nat): (r: seq<seq<byte>>)
    requires n > 0
    ensures forall i :: 0 <= i < |r| ==> 0 < |r[i]| <= n
    decreases |body|
  {
    if |body| == 0 then []
    else if |body| <= n then [body]
    else [body[..n]] + Chunks(body[n..], n)
  }

  /** The bytes a sequence of `f.write(chunk)` calls leaves in a fresh file. */
  function Concat(chunks: seq<seq<byte>>): seq<byte>
    decreases |chunks|
  {
    if |chunks| == 0 then [] else chunks[0] + Concat(chunks[1..])
  }

  /** Writing the chunks out in order reproduces the body. */
  lemma {:induction false} ChunksConcat(body: seq<byte>, n: nat)
    requires n > 0
    ensures Concat(Chunks(body, n)) == body
    decreases |body|
  {
    if |body| == 0 {
    } else if |body| <= n {
      assert Concat([body]) == body + Concat([]);
    } else {
      ChunksConcat(body[n..], n);
      var cs := Chunks(body, n);
      assert cs[0] == body[..n] && cs[1..] == Chunks(body[n..], n);
      assert body[..n] + body[n..] == body;
    }
  }
}

=== FILE: scenarios.dfy ===
/** Whole-call scenarios of `get_page` on a fresh parser and a scripted network. */
module Scenarios {
  import opened Wrappers
  import opened FileSystem
  import opened Payload
  import opened Cache
  import opened TextIo
  import opened Network
  import opened Parsing

  /** A parser whose captcha test finds no captcha in any page, as `BasicParser`'s does. */
  function PlainParser(c: FileCache): Parser {
    NewParser(c, NewNetworkManager(), d => false)
  }

  const Refused: Attempt := Attempt(0, ConnectionFailure)

  /** Three connection failures in a row on a miss: three downloads, no delay
      before this first page, the marker written, the call raises. */
  lemma ThreeConnectionFailures(c: FileCache, fs: Store, url: string)
    requires Ready(c, fs, url) && !Exists(fs, LegacyPath(c, url)) && !Present(c, fs, url)
    requires Encodes(c.codec, ErrorMarkerText)
    ensures var script := [Refused, Refused, Refused];
            var r := GetPage(PlainParser(c), fs, url, false, 7, script);
            && r.outcome == Threw(PageDownloadException(DownloadErrorMessage))
            && Downloads(script, r) == 3
            && r.delay == 0
            && IsInCacheError(c, r.store, url)
  {
    var p := PlainParser(c);
    var script := [Refused, Refused, Refused];
    assert Fails(p, false, Refused);
    assert script[1..] == [Refused, Refused] && script[1..][1..] == [Refused];
    assert DownloadLoop(p, false, Tries, script) == Loop(Exhausted, []);
    ExhaustionWritesMarker(p, fs, url, false, 7, script);
  }

  /** A captcha page followed by the real page: two downloads, the captcha is not
      counted as a try, and the real page is returned and cached. */
  lemma CaptchaThenPage(c: FileCache, fs: Store, url: string)
    requires Ready(c, fs, url) && !Exists(fs, LegacyPath(c, url)) && !Present(c, fs, url)
    requires Encodes(c.codec, "page")
    ensures var p := NewParser(c, NewNetworkManager(), d => d == Some(Text("captcha")));
            var script := [Attempt(0, Reply(200, "captcha", [])), Attempt(0, Reply(200, "page", []))];
            var r := GetPage(p, fs, url, false, 0, script);
            && r.outcome == Returned(Text("page"))
            && Downloads(script, r) == 2
            && !r.parser.isCacheUsed
  {
    var p := NewParser(c, NewNetworkManager(), d => d == Some(Text("captcha")));
    var a1, a2 := Attempt(0, Reply(200, "captcha", [])), Attempt(0, Reply(200, "page", []));
    var script := [a1, a2];
    assert Fetch(p, false, a1) == Success(Some(Text("captcha")));
    assert Fetch(p, false, a2) == Success(Some(Text("page")));
    assert script[1..] == [a2];
    assert DownloadLoop(p, false, Tries, script) == Loop(Fetched(Text("page")), []);
    WriteSucceeds(c, fs, url);
  }

  /** Answers other than 200, 404 and 500 cost a try like connection failures:
      two 503s and a 200 return the page after three downloads. */
  lemma SoftFailuresThenPage(c: FileCache, fs: Store, url: string)
    requires Ready(c, fs, url) && !Exists(fs, LegacyPath(c, url)) && !Present(c, fs, url)
    requires Encodes(c.codec, "page")
    ensures var busy := Attempt(0, Reply(503, "busy", []));
            var script := [busy, busy, Attempt(0, Reply(200, "page", []))];
            var r := GetPage(PlainParser(c), fs, url, false, 0, script);
            r.outcome == Returned(Text("page")) && Downloads(script, r) == 3
  {
    var p := PlainParser(c);
    var busy, ok := Attempt(0, Reply(503, "busy", [])), Attempt(0, Reply(200, "page", []));
    var script := [busy, busy, ok];
    assert Fails(p, false, busy);
    assert Fetch(p, false, ok) == Success(Some(Text("page")));
    assert script[1..] == [busy, ok] && script[1..][1..] == [ok];
    assert DownloadLoop(p, false, Tries, script) == Loop(Fetched(Text("page")), []);
    WriteSucceeds(c, fs, url);
  }

  /** A 200 answer with an empty text is a failure: three of them spend the budget. */
  lemma EmptyTextIsFailure(c: FileCache, fs: Store, url: string)
    requires Ready(c, fs, url) && !Exists(fs, LegacyPath(c, url)) && !Present(c, fs, url)
    requires Encodes(c.codec, ErrorMarkerText)
    ensures var empty := Attempt(0, Reply(200, "", []));
            var script := [empty, empty, empty];
            var r := GetPage(PlainParser(c), fs, url, false, 0, script);
            r.outcome == Threw(PageDownloadException(DownloadErrorMessage)) && Downloads(script, r) == 3
  {
    var p := PlainParser(c);
    var empty := Attempt(0, Reply(200, "", []));
    var script := [empty, empty, empty];
    assert Fails(p, false, empty);
    assert script[1..] == [empty, empty] && script[1..][1..] == [empty];
    assert DownloadLoop(p, false, Tries, script) == Loop(Exhausted, []);
    ExhaustionWritesMarker(p, fs, url, false, 0, script);
  }

  /** A 404 leaves at once: one download, no marker written. */
  lemma NotFoundPropagates(c: FileCache, fs: Store, url: string)
    requires Ready(c, fs, url) && !Exists(fs, LegacyPath(c, url)) && !Present(c, fs, url)
    requires !IsInCacheError(c, fs, url)
    ensures var script := [Attempt(0, Reply(404, "", [])), Attempt(0, Reply(200, "page", []))];
            var r := GetPage(PlainParser(c), fs, url, false, 0, script);
            && r.outcome == Threw(Network(PageNotFound))
            && Downloads(script, r) == 1
            && !IsInCacheError(c, r.store, url)
  {
    var p := PlainParser(c);
    var script := [Attempt(0, Reply(404, "", [])), Attempt(0, Reply(200, "page", []))];
    assert DownloadLoop(p, false, Tries, script) == Loop(Raised(PageNotFound), script[1..]);
    NetworkErrorPropagates(p, fs, url, false, 0, script);
  }
}

=== FILE: sqlarray.dfy ===
/** The array literal `set_bulk_attribute_value` writes into its SQL text by
    hand: every value becomes a character string literal, every row a
    parenthesised list of them, and the rows an `array[...]` constructor. */
module SqlArray {
  import opened Wrappers
  import opened Strings

  const Quote: char := '\''

  /** `escape`: doubles every single quote, the rule for writing a quote inside
      a character string literal (section 5.3 of ISO/IEC 9075-2). */
  function Escape(s: string): string {
    ReplaceAll(s, [Quote], [Quote, Quote])
  }

  lemma EscapeCons(c: char, s: string)
    ensures Escape([c] + s) == (if c == Quote then [Quote, Quote] else [c]) + Escape(s)
  {
    var cs := [c] + s;
    assert cs[..1] == [c] && cs[1..] == s;
  }

  /** Escaping adds exactly one character per quote. */
  lemma {:induction false} EscapeLength(s: string)
    ensures |Escape(s)| == |s| + multiset(s)[Quote]
    decreases |s|
  {
    if |s| > 0 {
      assert s == [s[0]] + s[1..];
      EscapeCons(s[0], s[1..]);
      EscapeLength(s[1..]);
      assert multiset(s) == multiset([s[0]]) + multiset(s[1..]);
    }
  }

  /** `"'%s'" % escape(v)`. */
  function QuoteValue(v: string): string {
    [Quote] + Escape(v) + [Quote]
  }

  function QuoteAll(row: seq<string>): (r: seq<string>)
    ensures |r| == |row|
    decreases |row|
  {
    if |row| == 0 then [] else [QuoteValue(row[0])] + QuoteAll(row[1..])
  }

  /** `'(%s)' % ','.join(...)`: one row of the literal. */
  function RowLiteral(row: seq<string>): string {
    "(" + Join(",", QuoteAll(row)) + ")"
  }

  function RowLiterals(rows: seq<seq<string>>): (r: seq<string>)
    ensures |r| == |rows|
    decreases |rows|
  {
    if |rows| == 0 then [] else [RowLiteral(rows[0])] + RowLiterals(rows[1..])
  }

  /** `avalues`: the rows joined by `, ` inside `array[...]`. */
  function ArrayLiteral(rows: seq<seq<string>>): string {
    "array[" + Join(", ", RowLiterals(rows)) + "]"
  }

  // ---------------------------------------------------------------------
  // Reading the literal back

  /** The rest of a quoted value after its opening quote: the value, with
      doubled quotes undone, and what follows the closing quote. */
  function ParseBody(s: string): (r: Option<(string, string)>)
    ensures r.Some? ==> |r.value.1| < |s|
    decreases |s|
  {
    if |s| == 0 then None
    else if s[0] == Quote then
      if |s| > 1 && s[1] == Quote then
        match ParseBody(s[2..])
        case None => None
        case Some((v, t)) => Some(([Quote] + v, t))
      else Some(("", s[1..]))
    else
      match ParseBody(s[1..])
      case None => None
      case Some((v, t)) => Some(([s[0]] + v, t))
  }

  function ParseValue(s: string): (r: Option<(string, string)>)
    ensures r.Some? ==> |r.value.1| < |s|
  {
    if |s| > 0 && s[0] == Quote then ParseBody(s[1..]) else None
  }

  /** Values separated by `,`. */
  function ParseValues(s: string): (r: Option<(seq<string>, string)>)
    ensures r.Some? ==> |r.value.1| < |s|
    decreases |s|
  {
    match ParseValue(s)
    case None => None
    case Some((v, t)) =>
      if |t| > 0 && t[0] == ',' then
        match ParseValues(t[1..])
        case None => None
        case Some((vs, u)) => Some(([v] + vs, u))
      else Some(([v], t))
  }

  /** One parenthesised row, possibly empty. */
  function ParseRow(s: string): (r: Option<(seq<string>, string)>)
    ensures r.Some? ==> |r.value.1| < |s|
  {
    if |s| < 2 || s[0] != '(' then None
    else if s[1] == ')' then Some(([], s[2..]))
    else
      match ParseValues(s[1..])
      case None => None
      case Some((vs, t)) => if |t| > 0 && t[0] == ')' then Some((vs, t[1..])) else None
  }

  /** Rows separated by `, `. */
  function ParseRows(s: string): (r: Option<(seq<seq<string>>, string)>)
    decreases |s|
  {
    match ParseRow(s)
    case None => None
    case Some((row, t)) =>
      if |t| >= 2 && t[..2] == ", " then
        match ParseRows(t[2..])
        case None => None
        case Some((rows, u)) => Some(([row] + rows, u))
      else Some(([row], t))
  }

  function ParseArray(s: string): Option<seq<seq<string>>> {
    match DropPrefix("array[", s)
    case None => None
    case Some(rest) =>
      if rest == "]" then Some([])
      else
        match ParseRows(rest)
        case None => None
        case Some((rows, t)) => if t == "]" then Some(rows) else None
  }

  // ---------------------------------------------------------------------
  // Round trip

  lemma {:induction false} ParseBodyOf(v: string, t: string)
    requires |t| == 0 || t[0] != Quote
    ensures ParseBody(Escape(v) + [Quote] + t) == Some((v, t))
    decreases |v|
  {
    if |v| == 0 {
      assert Escape(v) == "";
      assert Escape(v) + [Quote] + t == [Quote] + t;
      assert ([Quote] + t)[1..] == t;
    } else {
      var c := v[0];
      assert v == [c] + v[1..];
      EscapeCons(c, v[1..]);
      ParseBodyOf(v[1..], t);
      var tail := Escape(v[1..]) + [Quote] + t;
      if c == Quote {
        assert Escape(v) + [Quote] + t == [Quote, Quote] + tail;
        assert ([Quote, Quote] + tail)[2..] == tail;
      } else {
        assert Escape(v) + [Quote] + t == [c] + tail;
        assert ([c] + tail)[1..] == tail;
      }
    }
  }

  lemma ParseValueOf(v: string, t: string)
    requires |t| == 0 || t[0] != Quote
    ensures ParseValue(QuoteValue(v) + t) == Some((v, t))
  {
    ParseBodyOf(v, t);
    var s := QuoteValue(v) + t;
    assert s == [Quote] + (Escape(v) + [Quote] + t);
    assert s[1..] == Escape(v) + [Quote] + t;
  }

  lemma {:induction false} ParseValuesOf(vs: seq<string>, t: string)
    requires |vs| > 0
    requires |t| == 0 || (t[0] != ',' && t[0] != Quote)
    ensures ParseValues(Join(",", QuoteAll(vs)) + t) == Some((vs, t))
    decreases |vs|
  {
    var q := QuoteAll(vs);
    if |vs| == 1 {
      assert Join(",", q) == QuoteValue(vs[0]);
      ParseValueOf(vs[0], t);
      assert vs == [vs[0]];
    } else {
      var more := Join(",", QuoteAll(vs[1..])) + t;
      assert q[1..] == QuoteAll(vs[1..]);
      assert Join(",", q) + t == QuoteValue(vs[0]) + ("," + more);
      ParseValueOf(vs[0], "," + more);
      assert ("," + more)[1..] == more;
      ParseValuesOf(vs[1..], t);
      assert [vs[0]] + vs[1..] == vs;
    }
  }

  lemma ParseRowOf(row: seq<string>, t: string)
    ensures ParseRow(RowLiteral(row) + t) == Some((row, t))
  {
    var s := RowLiteral(row) + t;
    if |row| == 0 {
      assert s == "()" + t;
      assert s[2..] == t;
    } else {
      var body := Join(",", QuoteAll(row)) + (")" + t);
      assert s == "(" + body;
      assert s[1..] == body;
      assert QuoteAll(row)[0] == QuoteValue(row[0]);
      JoinHead(",", QuoteAll(row));
      assert s[1] == Quote;
      ParseValuesOf(row, ")" + t);
      assert (")" + t)[1..] == t;
    }
  }

  /** A join of non-empty parts starts with the first part. */
  lemma JoinHead(sep: string, parts: seq<string>)
    requires |parts| > 0 && |parts[0]| > 0
    ensures |Join(sep, parts)| > 0 && Join(sep, parts)[0] == parts[0][0]
  {
  }

  lemma {:induction false} ParseRowsOf(rows: seq<seq<string>>, t: string)
    requires |rows| > 0
    requires !(|t| >= 2 && t[..2] == ", ")
    ensures ParseRows(Join(", ", RowLiterals(rows)) + t) == Some((rows, t))
    decreases |rows|
  {
    var lits := RowLiterals(rows);
    if |rows| == 1 {
      assert Join(", ", lits) == RowLiteral(rows[0]);
      ParseRowOf(rows[0], t);
      assert rows == [rows[0]];
    } else {
      var more := Join(", ", RowLiterals(rows[1..])) + t;
      assert lits[1..] == RowLiterals(rows[1..]);
      assert Join(", ", lits) + t == RowLiteral(rows[0]) + (", " + more);
      ParseRowOf(rows[0], ", " + more);
      assert (", " + more)[..2] == ", " && (", " + more)[2..] == more;
      ParseRowsOf(rows[1..], t);
      assert [rows[0]] + rows[1..] == rows;
    }
  }

  /** The literal determines the rows: reading it back gives them unchanged,
      whatever quotes, commas or brackets the values contain. */
  lemma ArrayRoundTrip(rows: seq<seq<string>>)
    ensures ParseArray(ArrayLiteral(rows)) == Some(rows)
  {
    var inner := Join(", ", RowLiterals(rows));
    DropPrefixOf("array[", inner + "]");
    assert ArrayLiteral(rows) == "array[" + (inner + "]");
    if |rows| > 0 {
      JoinHead(", ", RowLiterals(rows));
      assert inner + "]" != "]" by { assert (inner + "]")[0] == '('; }
      ParseRowsOf(rows, "]");
    }
  }

  /** No rows give `array[]`. */
  lemma EmptyArray()
    ensures ArrayLiteral([]) == "array[]"
  {
  }

  /** Distinct row lists give distinct literals. */
  lemma ArrayLiteralInjective(a: seq<seq<string>>, b: seq<seq<string>>)
    requires ArrayLiteral(a) == ArrayLiteral(b)
    ensures a == b
  {
    ArrayRoundTrip(a);
    ArrayRoundTrip(b);
  }
}

=== FILE: strings.dfy ===
/** The few Python `str` operations the model needs, with their exact semantics. */
module Strings {
  import opened Wrappers

  /** Python `s.replace(pat, rep)` for a non-empty `pat`: every non-overlapping
      occurrence of `pat` is replaced, scanning from left to right. */
  function ReplaceAll(s: string, pat: string, rep: string): string
    requires |pat| > 0
    decreases |s|
  {
    if |s| < |pat| then s
    else if s[..|pat|] == pat then rep + ReplaceAll(s[|pat|..], pat, rep)
    else [s[0]] + ReplaceAll(s[1..], pat, rep)
  }

  /** Replacing never lengthens the text when the replacement is no longer than
      what it replaces. */
  lemma {:induction false} ReplaceAllNoLonger(s: string, pat: string, rep: string)
    requires |pat| > 0 && |rep| <= |pat|
    ensures |ReplaceAll(s, pat, rep)| <= |s|
    decreases |s|
  {
    if |s| < |pat| {
    } else if s[..|pat|] == pat {
      ReplaceAllNoLonger(s[|pat|..], pat, rep);
    } else {
      ReplaceAllNoLonger(s[1..], pat, rep);
    }
  }

  /** A text in which the first character of `pat` never occurs has no
      occurrence of `pat`, so it is left as it is. */
  lemma {:induction false} ReplaceAllAbsent(s: string, pat: string, rep: string)
    requires |pat| > 0 && pat[0] !in s
    ensures ReplaceAll(s, pat, rep) == s
    decreases |s|
  {
    if |s| < |pat| {
    } else {
      assert s[0] != pat[0];
      assert s[..|pat|] != pat by { assert s[..|pat|][0] == s[0]; }
      ReplaceAllAbsent(s[1..], pat, rep);
      assert [s[0]] + s[1..] == s;
    }
  }

  /** A character that occurs in neither the text nor the replacement does not
      occur in the result. */
  lemma {:induction false} ReplaceAllKeepsOut(s: string, pat: string, rep: string, c: char)
    requires |pat| > 0 && c !in s && c !in rep
    ensures c !in ReplaceAll(s, pat, rep)
    decreases |s|
  {
    if |s| < |pat| {
    } else if s[..|pat|] == pat {
      ReplaceAllKeepsOut(s[|pat|..], pat, rep, c);
    } else {
      ReplaceAllKeepsOut(s[1..], pat, rep, c);
    }
  }

  /** Replacing a one-character text removes every occurrence of that character
      when the replacement does not contain it. */
  lemma {:induction false} ReplaceAllRemovesChar(s: string, c: char, rep: string)
    requires c !in rep
    ensures c !in ReplaceAll(s, [c], rep)
    decreases |s|
  {
    if |s| < 1 {
    } else if s[..1] == [c] {
      ReplaceAllRemovesChar(s[1..], c, rep);
    } else {
      assert s[0] != c by { assert s[..1][0] == s[0]; }
      ReplaceAllRemovesChar(s[1..], c, rep);
    }
  }

  /** When the first character of `pat` occurs only at the head of `s` and `s`
      does not start with `pat`, nothing is replaced. */
  lemma ReplaceAllHeadMismatch(s: string, pat: string, rep: string)
    requires |pat| > 0 && |s| > 0 && pat[0] !in s[1..]
    requires !(|pat| <= |s| && s[..|pat|] == pat)
    ensures ReplaceAll(s, pat, rep) == s
  {
    if |s| >= |pat| {
      ReplaceAllAbsent(s[1..], pat, rep);
      assert [s[0]] + s[1..] == s;
    }
  }

  /** When `s` starts with `pat` and its first character does not occur after
      that, exactly the head is replaced. */
  lemma ReplaceAllHeadMatch(s: string, pat: string, rep: string)
    requires |pat| > 0 && |pat| <= |s| && s[..|pat|] == pat && pat[0] !in s[|pat|..]
    ensures ReplaceAll(s, pat, rep) == rep + s[|pat|..]
  {
    ReplaceAllAbsent(s[|pat|..], pat, rep);
  }

  /** Python `sep.join(parts)`. */
  function Join(sep: string, parts: seq<string>): string
    decreases |parts|
  {
    if |parts| == 0 then ""
    else if |parts| == 1 then parts[0]
    else parts[0] + sep + Join(sep, parts[1..])
  }

  /** `s` without the prefix `p`, if it starts with it. */
  function DropPrefix(p: string, s: string): (r: Option<string>)
    ensures r.Some? <==> |p| <= |s| && s[..|p|] == p
    ensures r.Some? ==> s == p + r.value
  {
    if |p| <= |s| && s[..|p|] == p then
      assert s == s[..|p|] + s[|p|..];
      Some(s[|p|..])
    else None
  }

  /** `s` without the suffix `q`, if it ends with it. */
  function DropSuffix(s: string, q: string): (r: Option<string>)
    ensures r.Some? <==> |q| <= |s| && s[|s| - |q|..] == q
    ensures r.Some? ==> s == r.value + q
  {
    if |q| <= |s| && s[|s| - |q|..] == q then
      assert s == s[..|s| - |q|] + s[|s| - |q|..];
      Some(s[..|s| - |q|])
    else None
  }

  lemma DropPrefixOf(p: string, t: string)
    ensures DropPrefix(p, p + t) == Some(t)
  {
    assert (p + t)[..|p|] == p;
    assert (p + t)[|p|..] == t;
  }

  lemma DropSuffixOf(t: string, q: string)
    ensures DropSuffix(t + q, q) == Some(t)
  {
    assert (t + q)[|t + q| - |q|..] == q;
    assert (t + q)[..|t + q| - |q|] == t;
  }
}

=== FILE: textio.dfy ===
/** Python's text layer over the byte store: `open(p, 'w').write(s)` encodes with
    the locale's codec, `open(p).read()` decodes and applies universal-newline
    translation. */
module TextIo {
  import opened Wrappers
  import opened FileSystem

  /** The locale encoding `open()` uses in text mode, left uninterpreted.
      Encoding is partial: a text the codec cannot represent raises
      `UnicodeEncodeError`. */
  datatype Codec = Codec(encode: string -> Option<seq<byte>>, decode: seq<byte> -> Option<string>)

  /** The codec can write `s`. */
  predicate Encodes(c: Codec, s: string) {
    c.encode(s).Some?
  }

  /** Every text can be written, and decoding undoes encoding. */
  ghost predicate Lossless(c: Codec) {
    forall s :: c.encode(s).Some? && c.decode(c.encode(s).value) == Some(s)
  }

  /** Universal newlines on read: `\r\n` and a lone `\r` both become `\n`. */
  function TranslateNewlines(s: string): (r: string)
    ensures '\r' !in r
    ensures |r| <= |s|
    decreases |s|
  {
    if |s| == 0 then s
    else if s[0] == '\r' then
      if |s| > 1 && s[1] == '\n' then "\n" + TranslateNewlines(s[2..])
      else "\n" + TranslateNewlines(s[1..])
    else [s[0]] + TranslateNewlines(s[1..])
  }

  /** A text survives the newline translation exactly when it has no carriage return. */
  lemma {:induction false} TranslateNewlinesIdentity(s: string)
    ensures TranslateNewlines(s) == s <==> '\r' !in s
    decreases |s|
  {
    if '\r' in s {
      assert TranslateNewlines(s) != s;
    } else if |s| > 0 {
      TranslateNewlinesIdentity(s[1..]);
      assert [s[0]] + s[1..] == s;
    }
  }

  /** `open(p, 'w').write(s)`.  Opening truncates the file before the text is
      encoded, so a text the codec cannot represent leaves an empty file. */
  function WriteText(c: Codec, fs: Store, p: Path, s: string): (r: Step<()>)
    ensures r.result.Success? <==> ParentError(fs, p).None? && p !in fs.dirs && Encodes(c, s)
    ensures r.result.Success? ==> r.store == fs.(files := fs.files[p := c.encode(s).value])
    ensures ParentError(fs, p).None? && p !in fs.dirs && !Encodes(c, s) ==>
              r == Step(fs.(files := fs.files[p := []]), Failure(UnencodableText(p)))
    ensures ParentError(fs, p).Some? || p in fs.dirs ==> r.store == fs
  {
    var open := OpenForWrite(fs, p);
    if open.result.Failure? then open
    else match c.encode(s)
      case None => Step(open.store, Failure(UnencodableText(p)))
      case Some(bytes) =>
        assert [] + bytes == bytes;
        Step(Append(open.store, p, bytes), Success(()))
  }

  /** `open(p).read()`. */
  function ReadText(c: Codec, fs: Store, p: Path): (r: Result<string, IoError>)
    ensures r.Success? ==> p in fs.files && c.decode(fs.files[p]).Some?
    ensures r.Success? ==> r.value == TranslateNewlines(c.decode(fs.files[p]).value)
    ensures r.Failure? <==> ReadFile(fs, p).Failure? || c.decode(fs.files[p]).None?
  {
    var bytes :- ReadFile(fs, p);
    match c.decode(bytes)
    case None => Failure(UndecodableText(p))
    case Some(text) => Success(TranslateNewlines(text))
  }

  /** Writing a text and reading it back gives the text with its line endings
      normalised; it gives the very same text exactly when it has no `\r`. */
  lemma TextRoundTrip(c: Codec, fs: Store, p: Path, s: string)
    requires Lossless(c)
    requires ParentError(fs, p).None? && p !in fs.dirs
    ensures WriteText(c, fs, p, s).result.Success?
    ensures ReadText(c, WriteText(c, fs, p, s).store, p) == Success(TranslateNewlines(s))
    ensures ReadText(c, WriteText(c, fs, p, s).store, p) == Success(s) <==> '\r' !in s
  {
    TranslateNewlinesIdentity(s);
  }
}

=== FILE: wrappers.dfy ===
/** Failure-compatible wrappers shared by every module of the model. */
module Wrappers {

  /** Python's `None` or a value. */
  datatype Option<+T> = None | Some(value: T)

  /** A value or the exception raised instead of returning one. */
  datatype Result<+R, +E> = Success(value: R) | Failure(error: E) {
    predicate IsFailure() {
      Failure?
    }

    function PropagateFailure<U>(): Result<U, E>
      requires Failure?
    {
      Failure(error)
    }

    function Extract(): R
      requires Success?
    {
      value
    }

    function ToOption(): Option<R> {
      match this
      case Success(v) => Some(v)
      case Failure(_) => None
    }
  }
}
